=== FILE: README.md ===
# ts2es demultiplexer core, modelled in Dafny

ts2es reads an MPEG-2 transport stream and extracts one MPEG audio
elementary stream. It works one 188-byte packet at a time:

- it follows the Program Association Table (PAT) to the Program Map Table (PMT);
- it chooses the PIDs to extract:
  - a configured PID range,
  - every PID the PMT lists for one stream type, or
  - the first PID that starts a valid PES packet;
- for each chosen PID it checks the continuity counter;
- it strips the PES headers;
- it scans the stream for an MPEG audio frame header whenever the stream is out of sync;
- it hands the collected bytes to an output callback.

The model covers these parts of the C code:

- the packet and PES header accessors of `ts2es.h`;
- the PAT and PMT decoders of `ts_table.c`;
- the MPEG audio header validator of `mpa_header.c`;
- the per-packet demultiplexer of `ts2es.c`;
- the output callback and packet loop of the `test.c` driver. Every output in the model goes through this callback.

Modules, in dependency order:

| file | module | what it holds |
|---|---|---|
| `util.dfy` | `Util` | bytes, `Option`/`Result`, the `Fault` kinds, `uint32_t`/`int`/`size_t` wrap-around |
| `ts_format.dfy` | `TsFormat` | the TS and PES header accessors as bit-vector functions, with builders and round trips |
| `ts_table.dfy` | `TsTable` | PAT and PMT decoding, section builders, round trips |
| `mpa_header.dfy` | `MpaHeader` | the bitrate and sample-rate tables, `parse_header`, `mpa_header_parse` |
| `es_stream.dfy` | `EsStream` | the ES record, the continuity check, the registry (`ts2es_find_es`), the output callback |
| `pes.dfy` | `PesAssembler` | `validate_pes_header` and `extract_pes_payload` |
| `demux.dfy` | `Demux` | `ts2es_create`, `ts2es_demux_ts_packet`, the driver loop |

### How the C code is modelled

- **Unsafe memory accesses become faults.** The C code reads or writes outside an array in several places:
  - a section field past the packet;
  - a PES header past the packet;
  - payload bytes through a payload pointer past the packet, when an adaptation field is longer than the packet;
  - more than 32 PMT entries or ES records;
  - more than `ES_MAX_SIZE` buffered bytes.

  At each of these the model stops the packet with a `Fault` value instead of continuing. A payload pointer past the packet is a fault only when a byte is read through it. A continuation packet reads no byte when the stream has no PES header yet or nothing left of its PES packet. It also reads none when the stream is out of sync and fewer than four bytes are left, because the sync scan needs four.
- **The transport-error branch is modelled twice.** In the code it writes through the record pointer while that is still NULL (see Findings). `Demux.GateAsWritten` models the code as written and faults with `NullRecord`. `Demux.Gate` models the intended behaviour: it drops the packet and takes that PID's record out of sync. `Demux.Route`, `Demux.Demultiplex`, `Demux.Step` and `Demux.Run` all use `Demux.Gate`.
- **Integer widths are explicit.**
  - The packet and byte counters wrap as `uint32_t`.
  - `pes_remaining` wraps as `int`.
  - The end-of-PES test and the cut to `pes_remaining` compare as `size_t`.
  - PTS and DTS keep only 32 bits, because the C macro casts every part to `uint32_t`.
- **A PES header is read before it is validated.** A start packet whose payload is shorter than the 19 bytes read at its start is a fault, even when the header would be rejected.
- **The output callback writes only after a PMT.** A record's buffer is written out only once a PMT has switched output on and the buffer is non-empty; only then is the buffer emptied. Before the first PMT the bytes stay buffered.
- **Behaviour of the code worth noting:**
  - `ts2es_create` refuses a configuration that has neither a positive PID range nor a positive stream type. So automatic PID selection (`pid_max` = -1) only happens together with a stream type to catch, until the first PMT replaces the window.
  - Timestamps are read as 32 bits, although a PES timestamp has 33.
  - Table and buffer overflows overrun memory; they are not reported as errors. The model reports a fault.
  - The end-of-PES test adds what is left of the PES packet, after this packet's bytes were counted off, to the whole payload length, including any PES header, and compares as `size_t`.
  - The continuation guard tests the stream id for truth. A stream that latched stream id 0x00 skips every continuation packet. A stream that has seen no header yet (stream id -1) runs the continuation path with nothing left of a PES packet, so it keeps no byte.
  - A PAT with section_length 0 reads its CRC_32 from one byte before the section, which is still the pointer field of the packet. It lists no program.

## Model

| member | source | states |
|---|---|---|
| TsFormat.TransError | source/ts2es/ts2es.h:49 | the transport error flag is 0 or 1, and it is 1 exactly when bit 7 of byte 1 is set |
| TsFormat.PayloadStart | source/ts2es/ts2es.h:50 | the payload-unit-start flag is 0 or 1, and it is 1 exactly when bit 6 of byte 1 is set |
| TsFormat.Priority | source/ts2es/ts2es.h:51 | the macro shifts by 4 instead of 5, so the priority reads as 0 or 2, and it is 2 exactly when bit 5 is set |
| TsFormat.Pid | source/ts2es/ts2es.h:52 | the PID always fits in 13 bits |
| TsFormat.ParseBuildTsHeader | source/ts2es/ts2es.h:48-56 | every field of a well-formed 4-byte header a multiplexer writes is read back unchanged |
| TsFormat.BuildParseTsHeader | source/ts2es/ts2es.h:48-56 | the accessors lose no bit: rewriting the decoded fields gives back the four header bytes whenever byte 0 is the sync byte |
| TsFormat.PidRoundTrip | source/ts2es/ts2es.h:52 | any 13-bit PID packed into bytes 1 and 2 is extracted unchanged, whatever the three flag bits above it hold |
| TsFormat.PesStartCodeOk | source/ts2es/ts2es.h:60-62 | true exactly when the payload starts with 00 00 01 |
| TsFormat.PesPacketLen | source/ts2es/ts2es.h:64 | PES_packet_length is big-endian: its high byte is byte 4 and its low byte is byte 5 |
| TsFormat.TimestampRoundTrip | source/ts2es/ts2es.h:82-86 | a 33-bit timestamp packed in the five-byte layout reads back as its low 32 bits; bit 32 is lost to the `uint32_t` casts |
| TsFormat.ParseBuildPesHeader | source/ts2es/ts2es.h:60-92 | every PES accessor returns what a multiplexer wrote: start code, stream id, length, marker bits, no scrambling, header length, and PTS and DTS modulo 2^32 |
| TsTable.SectionLength | source/ts2es/ts_table.c:40 | section_length is a 12-bit value |
| TsTable.PatEntryCount | source/ts2es/ts_table.c:62 | the PAT loop runs the fewest times k with 4k >= section_length - 12, and runs at least once only when section_length > 12 |
| TsTable.LastProgramPid | source/ts2es/ts_table.c:62-79 | network entries (program_number 0) leave the PMT PID as it was; otherwise the result is the PID of the last entry with a non-zero program number |
| TsTable.DecodePat | source/ts2es/ts_table.c:34-80 | decoding succeeds exactly when the eight header bytes, the far end of the CRC_32 (offset section_length + 2) and every loop entry lie inside the bytes available; any section_length, 0 included, is accepted on those terms; the PMT PID is -1 or a 13-bit PID; the only fault is SectionOverrun |
| TsTable.PatZeroLength | source/ts2es/ts_table.c:40-62 | a section whose section_length is 0 decodes, lists no program and leaves the PMT PID at -1 |
| TsTable.PatRoundTrip | source/ts2es/ts_table.c:34-80 | a PAT section built for any list of up to 1000 entries (so that section_length fits its 12 bits) fits, its loop reads back exactly those entries, and it decodes to the last program's PID |
| TsTable.PmtScan | source/ts2es/ts_table.c:120-147 | every entry read is well-formed; each entry uses at least five bytes of the section, which bounds the count; a fault only happens while the loop condition holds |
| TsTable.DecodePmt | source/ts2es/ts_table.c:84-147 | fewer than 12 bytes is SectionOverrun; SectionOverrun is the only fault; every entry returned is well-formed |
| TsTable.EmptyPmtTable | source/ts2es/ts_table.c:53-54 | the table after a PAT holds MAX_NUM_ES zeroed slots |
| TsTable.StorePmt | source/ts2es/ts_table.c:139-143 | entry k goes to slot k and later slots keep their old contents; overflow is flagged exactly when there are more than MAX_NUM_ES entries |
| TsTable.PmtScanLoop | source/ts2es/ts_table.c:120-147 | scanning the serialized entries (with descriptors of any length) followed by the CRC gives back exactly those entries, in order |
| TsTable.PmtRoundTrip | source/ts2es/ts_table.c:84-147 | a PMT section built with any number of program-descriptor bytes and any entries, as long as section_length fits its 12 bits, decodes to exactly those entries, because the decoder skips the program descriptors; its PCR PID and program_info_length read back |
| MpaHeader.HeaderWord | source/ts2es/mpa_header.c:178-181 | the four bytes of the word, big-endian, are the first four input bytes |
| MpaHeader.VersionOf | source/ts2es/mpa_header.c:72-75 | the version is 1, 2 or 3, never 0; it is 3 exactly when the low sync bit is clear, and 1 exactly when that bit and the version bit are both set |
| MpaHeader.LayerOf | source/ts2es/mpa_header.c:77-80 | the layer is 0 exactly for the reserved bits '00', and 4 minus the layer bits otherwise |
| MpaHeader.Derive | source/ts2es/mpa_header.c:93-115 | bitrate and sample rate are looked up only when the layer is nonzero (they are 0 otherwise); channels and samples per frame follow mode and version; a frame size exists exactly when the sample rate is nonzero and then follows the formula |
| MpaHeader.Validate | source/ts2es/mpa_header.c:187-210 | accepts exactly when the sync bits are set and layer, version, bitrate and sample rate are all nonzero, and returns the header unchanged |
| MpaHeader.Parse | source/ts2es/mpa_header.c:168-213 | a first byte other than 0xFF is rejected; an accepted header is the parse of the big-endian word |
| MpaHeader.ValidatedSane | source/ts2es/mpa_header.c:187-212 | an accepted header has layer and version 1..3, a bitrate of 8..448 kbit/s, a sample rate of 8000..48000 Hz and a frame size |
| MpaHeader.BitrateZeroIff | source/ts2es/mpa_header.c:38-57 | only the "free" (0) and "bad" (15) bitrate indices give 0, in every version and layer |
| MpaHeader.SamplerateZeroIff | source/ts2es/mpa_header.c:59-63 | only the reserved sample-rate index 3 gives 0, in every version |
| MpaHeader.FrameProductFits | source/ts2es/mpa_header.c:114 | the product samples x bitrate x 1000 stays below 2^32 for every table entry, so the `uint32_t` arithmetic never wraps |
| MpaHeader.ValidateAcceptsIff | source/ts2es/mpa_header.c:185-212 | a header word is accepted exactly when its sync bits are set, its layer bits are not '00', its bitrate index is not 0 or 15, and its sample-rate index is not 3 |
| MpaHeader.ParseAcceptsIff | source/ts2es/mpa_header.c:168-213 | the validator accepts exactly the byte patterns of the independent reading `IsFrameHeader`; the version bits never disqualify a header |
| MpaHeader.Layer3At128k | source/ts2es/mpa_header.c:107-114 | FF FB 90 00 is MPEG-1 layer III, 128 kbit/s, 44100 Hz, with 417-byte frames |
| MpaHeader.Layer3At128kPadded | source/ts2es/mpa_header.c:85-114 | with the padding bit set, the same header has 418-byte frames |
| MpaHeader.BrokenSyncRejected | source/ts2es/mpa_header.c:188-190 | 0xFF followed by clear sync bits is not a header |
| MpaHeader.PaddingAddsOne | source/ts2es/mpa_header.c:85-114 | setting the padding bit of any valid header keeps it valid and makes the frame exactly one byte longer |
| EsStream.NewRecord | ts2es/ts2es.c:246-251 | a new record is a valid record for its PID and starts with an empty buffer |
| EsStream.ContinuityCheck | ts2es/ts2es.c:216-233 | the next expected counter is cc + 1 mod 16; sync survives exactly when it was on and the counter was the expected one; nothing else in the record changes |
| EsStream.ConsecutiveKeepsSync | ts2es/ts2es.c:216-233 | counters that follow on without a gap keep the sync as it was and advance the expectation by their number, mod 16 |
| EsStream.UnsyncedStaysUnsynced | ts2es/ts2es.c:218-225 | once a stream is out of sync, no counter brings the sync back |
| EsStream.BreakLosesSync | ts2es/ts2es.c:216-233 | a gap or a repeat anywhere in a run of counters drops the sync |
| EsStream.CheckAllKeepsSyncIff | ts2es/ts2es.c:216-233 | a stream is still synced after a run of packets exactly when it was synced and the counters followed on without a gap or a repeat |
| EsStream.FreshRecordLosesSync | ts2es/ts2es.c:216-251 | a record fresh from the registry expects counter -1, so its first packet always drops the initial sync |
| EsStream.IndexOf | ts2es/ts2es.c:240-244 | the lookup finds the first record with the PID, or reports that no record has it |
| EsStream.FindEs | ts2es/ts2es.c:237-254 | an existing PID returns its record and leaves the registry unchanged; a new PID adds a fresh record at the end, or is EsTableOverflow when MAX_NUM_ES records are in use |
| EsStream.FindEsKeepsRegistry | ts2es/ts2es.c:237-254 | the lookup keeps PIDs distinct, keeps at most MAX_NUM_ES records, and adds at most one |
| EsStream.Flush | test.c:29-49 | the bytes written plus the bytes left are the bytes buffered; it writes exactly when output is on and the buffer is non-empty, as one chunk with the record's PID and PTS; nothing else in the record changes |
| PesAssembler.ValidatePesHeader | ts2es/ts2es.c:82-115 | a header is accepted exactly when it starts with 00 00 01, has the marker bits '10', and is not scrambled; the stream id is not checked |
| PesAssembler.BuiltPesHeaderValid | ts2es/ts2es.c:82-115 | every unscrambled header a multiplexer writes is accepted |
| PesAssembler.SyncOffset | ts2es/ts2es.c:180-199 | the scan returns the first offset at which four bytes form a valid frame header; no earlier offset does; no offset qualifies when none is returned |
| PesAssembler.Acquire | ts2es/ts2es.c:180-199 | a synced stream keeps every byte; an unsynced one keeps the suffix from the first frame header on, and nothing if there is no frame header |
| PesAssembler.Append | ts2es/ts2es.c:201-210 | fails with BufferOverflow exactly when the bytes would not fit in ES_MAX_SIZE; otherwise the bytes written plus the bytes buffered are the old buffer plus the new bytes; it writes exactly when output is on, the buffer is non-empty and the remaining PES length plus the payload length, added as `size_t`, is below 183; a write is one chunk with the whole buffer and the record's PTS, and leaves the buffer empty |
| PesAssembler.Deliver | ts2es/ts2es.c:173-211 | the remaining PES length drops by the length of the bytes handed in (wrapping as `int`), before the sync scan; the bytes kept are those of the sync scan; the stream is synced afterwards exactly when it was or a frame header was found; bytes are conserved; it writes exactly when output is on, bytes were kept and the new remaining length plus the whole payload length, as `size_t`, is below 183, and then the whole buffer as one chunk, leaving it empty; it fails exactly when the kept bytes would overflow the buffer |
| PesAssembler.Clip | ts2es/ts2es.c:162-171 | a continuation payload is cut to a prefix no longer than the remaining PES length read as `size_t`, and only cut when longer than that |
| PesAssembler.Begin | ts2es/ts2es.c:154-211 | an accepted header sets the stream id and timestamps and sets the remaining length to PES_packet_length + 7 - payload length; a header longer than the payload is PayloadOverrun; the bytes kept are exactly the sync scan, on the stream's own flag, of the bytes after the 9 + PES_header_data_length header bytes (`Scanned`), the stream is synced afterwards exactly when it was or something was kept, and never_synced clears exactly when an unsynced stream finds a frame header; it writes exactly when output is on, bytes were kept and the end-of-PES test on the new remaining length and the whole payload length holds |
| PesAssembler.Restart | ts2es/ts2es.c:133-211 | a taken header writes the old buffer first, as one chunk with the old PTS; then (`Started`) the record takes the header's stream id, timestamps and remaining length, the bytes after the header are run through the sync scan on the record's own flag (the write before leaves the flag alone), and one more chunk follows exactly when the end-of-PES test holds |
| PesAssembler.StartPes | ts2es/ts2es.c:126-211 | the old buffer is written first, before the header is checked, as one chunk with the old PTS when output is on and the buffer is non-empty; an invalid header, or a stream id other than the one latched, then changes nothing but that write; otherwise (`Started`) the record takes the header's stream id, timestamps and remaining length PES_packet_length + 7 - payload length, keeps the sync scan of the bytes after the 9 + PES_header_data_length header bytes with sync and never_synced updated by it, and one more chunk follows exactly when the end-of-PES test holds; bytes are conserved across both writes |
| PesAssembler.ContinuePes | ts2es/ts2es.c:162-211 | a stream that latched stream id 0x00 skips the packet and changes nothing; any other, including one with no header yet (stream id -1), keeps the sync scan of the payload cut to the remaining length, is synced afterwards exactly when it was or something was kept, clears never_synced exactly when an unsynced stream finds a frame header (`Scanned`), counts the cut length off the remaining length (wrapping as `int`), writes exactly when the end-of-PES test holds, and fails exactly when the kept bytes would overflow the buffer; only sync, remaining length and buffer change |
| PesAssembler.ContinueBeforeHeader | ts2es/ts2es.c:162-176 | a stream that has seen no PES header (stream id -1, nothing remaining) takes the continuation path, cuts the payload to nothing, and leaves the record and the output as they were |
| PesAssembler.Extract | ts2es/ts2es.c:120-212 | a start payload under 19 bytes is PayloadOverrun; a start packet writes the old buffer first; a header that is invalid or carries a stream id other than the latched one (`Takes` fails) changes nothing but that write; a taken header (`Started`) sets stream id, timestamps and remaining length PES_packet_length + 7 - payload length, keeps the sync scan of the bytes after the 9 + PES_header_data_length header bytes, updates sync and never_synced by that scan, and adds one chunk exactly when the end-of-PES test holds; a continuation packet keeps the sync scan of the cut payload, updates sync by it, counts the cut off the remaining length and writes exactly when the end-of-PES test holds; bytes are conserved; at most two chunks are written, all on the record's PID, none while output is off; PID and continuity counter are untouched |
| Demux.Create | ts2es/ts2es.c:384-427 | a refused configuration gives no context; an accepted one starts valid, empty, never synced, with output off and both counters at 0 |
| Demux.CreateAccepts | ts2es/ts2es.c:384-387 | a context is created exactly when the PID range is positive or the stream type to catch is positive; automatic selection (`pid_max` = -1) therefore comes with a stream type |
| Demux.ListedCount | ts2es/ts2es.c:289-293 | the window scan stops at the first PMT slot whose PID is 0 |
| Demux.ScanWindow | ts2es/ts2es.c:289-302 | the window grows to cover every listed PID of the caught type; each bound is either its start value or one of those PIDs |
| Demux.PidWindow | ts2es/ts2es.c:286-303 | the window from a PMT covers every listed stream of the type, its bounds are such PIDs or the starting bounds, the low bound is at most 0x1FFE and the high bound at least 1, and it is the empty [0x1FFE, 1] when there is none |
| Demux.Tables | ts2es/ts2es.c:277-304 | a PAT sets the PMT PID to the last program's and clears the table; a PMT puts its entries in the first slots in order, leaves later slots as they were, switches output on and, with a stream type, sets the window to exactly the one the new table yields for it; other PIDs change nothing |
| Demux.DemultiplexPsi | ts2es/ts2es.c:277-304 | on the packet's own bytes: after a PAT the PMT PID is the last program's and the table is empty; after a PMT output is on, the table starts with the PMT's entries, and with a stream type the window is the one the new table yields for it, whatever the rest of the packet does |
| Demux.GateAsWritten | ts2es/ts2es.c:307-321 | an admitted scrambled packet is dropped; an admitted unscrambled packet with a transport error is the NULL-pointer write |
| Demux.Gate | ts2es/ts2es.c:307-321 | an admitted packet that is scrambled or has a transport error is dropped; a transport error takes that PID's record (only) out of sync and changes nothing else |
| Demux.GatesAgree | ts2es/ts2es.c:307-321 | both gates agree on every packet the code as written survives |
| Demux.TransportErrorDereferencesNull | ts2es/ts2es.c:314-319 | a concrete accepted configuration and packet that reach the NULL-pointer write |
| Demux.PayloadOffset | ts2es/ts2es.c:323-337 | the payload starts right after the 4-byte header exactly when the packet does not carry both an adaptation field and a payload; otherwise it lies past the adaptation field's length byte, at most at offset 260 |
| Demux.PayloadAfterAdaptation | ts2es/ts2es.c:323-337 | in a packet with adaptation field and payload built as header, length byte L, L adaptation bytes and payload P, the payload read is exactly P, all 184 - (L + 1) bytes of it |
| Demux.PayloadAfterHeader | ts2es/ts2es.c:323-329 | in a packet without an adaptation field in front of its payload, the payload read is everything after the 4-byte header |
| Demux.Payload | ts2es/ts2es.c:323-337 | the payload is the rest of the packet from the offset, and empty when the offset lies past the packet |
| Demux.ProbePesHeader | ts2es/ts2es.c:82-115 | reading byte by byte, a payload faults exactly when it is shorter than 7 bytes and every start-code byte it has matches 00 00 01, so a mismatch at byte 0, 1 or 2 rejects the header before the missing bytes are read; with 7 bytes the verdict is that of `ValidatePesHeader` |
| Demux.AutoSelect | ts2es/ts2es.c:346-354 | with no PID chosen, a packet that starts a PES packet puts its PID in the window exactly when its header is valid; nothing else changes |
| Demux.Feed | ts2es/ts2es.c:323-362 | the continuity check runs before extraction: on a continuation packet the bytes kept are the sync scan, on the flag as the check leaves it (`StaysSynced`), of the payload cut to the remaining length, and on a start packet those of the bytes after a taken PES header, with none kept when the header is not taken; with the payload pointer past the packet the packet succeeds exactly for a continuation packet that reads no byte, and then nothing is kept or written and the remaining length drops to 0 unless stream id 0x00 is latched; bytes are conserved; only the record's own PID is written |
| Demux.ExtractPastPacket | ts2es/ts2es.c:162-201 | with the payload pointer past the packet, a start packet faults; a continuation packet succeeds exactly when it reads no byte (no header latched, nothing left, or out of sync with fewer than four bytes left), writing nothing and setting the remaining length to 0 |
| Demux.FeedInPacket | ts2es/ts2es.c:358-362 | for a payload inside the packet, the bytes kept are judged on the sync flag as the continuity check leaves it, for continuation packets, taken headers and ignored headers alike |
| Demux.FeedScanned | ts2es/ts2es.c:358-362 | what extraction on the checked record keeps is the sync scan on the record's flag after the continuity check of the packet's counter |
| Demux.RecordFor | ts2es/ts2es.c:237-254 | the record `ts2es_find_es` hands out for a PID: the stream's own record when there is one (with its buffer), otherwise a fresh record for that PID |
| Demux.Process | ts2es/ts2es.c:356-363 | the packet goes to `Feed` with the record `ts2es_find_es` hands out (`Fed`): a new PID with all MAX_NUM_ES records in use faults, otherwise the packet fails exactly when `Feed` does, and on success the chunks written, the bytes kept, the never-synced flag and the PID's installed record are exactly `Feed`'s; the stream's buffer plus what was written is the old buffer plus the kept bytes; other streams are untouched; the registry stays valid and grows by at most one record |
| Demux.Route | ts2es/ts2es.c:306-365 | a packet the gate drops ends with the gate's outcome; an adaptation-only or null packet the gate lets through changes nothing; any other packet is `Routed`: the automatic PID choice is made first, a PID then in the window is fed to its stream as `Process` states (`Fed`), and a PID outside it leaves the streams as they were, writes nothing and keeps nothing; the window only changes while no PID is chosen; nothing is written before the first PMT |
| Demux.Demultiplex | ts2es/ts2es.c:275-365 | the PSI comes first (`AfterTables`): a PAT or PMT that cannot be read fails the packet, and the PMT PID, the PMT table and the output switch are the ones `Tables` leaves; then a packet the gate drops ends with the gate's outcome and any other packet with a payload on a non-null PID is `Routed`; output once on stays on; only chunks of the packet's own PID in the window are written, and only after a PMT; the stream's bytes are conserved and every other stream is left alone |
| Demux.Step | ts2es/ts2es.c:258-273 | every call counts the packet (mod 2^32); a wrong sync byte returns 0 and changes nothing else; any other packet returns 1; the byte counter adds up what the sink wrote; chunks are on the packet's PID; output once on stays on, and nothing is written while it is off |
| Demux.StepDemultiplexes | ts2es/ts2es.c:258-273 | a packet with a good sync byte is counted and then demultiplexed: the step fails exactly when demultiplexing fails, and otherwise has its chunks, its kept bytes and its context, but for the byte counter |
| Demux.TallyIsSum | test.c:48 | adding each write's length to the `uint32_t` total gives the same total as adding all the written bytes at once, mod 2^32 |
| Demux.NullPacketOnlyCounts | ts2es/ts2es.c:341-344 | a null packet (not named as the PMT's PID) changes nothing but the packet counter |
| Demux.Run | test.c:79-88 | a run keeps the context valid and ends early only at a fault or right after a packet with a wrong sync byte |
| Demux.RunStops | test.c:79-88 | the loop stops at the first packet with a wrong sync byte: every packet before the last one consumed has a good sync byte, and a run that faults does so on a packet with a good sync byte, before counting it |
| Demux.RunTotals | test.c:48 | over a whole run the packet counter grows by the packets consumed and the byte counter by every byte written, both mod 2^32 |
| Demux.RunKeepsOutput | ts2es/ts2es.c:284 | over a whole run output once on stays on, and nothing is written while it is off |
| Demux.RunWritesOwnPids | ts2es/ts2es.c:356-363 | over a whole run every chunk written is on the PID of a packet the run consumed |

## Left out

- Logging (`ts2es_report`, the log level, `mpa_header_print`): console output only, with no effect on the state.
- `ts2es_destroy` and the memory layout of `ts2es_create` (one allocation, cache-line alignment): the buffers are modelled as sequences.
- The exits of `ts2es_create` and of the driver: a refused configuration is `None`. A failed write (`exit(-2)`) is not modelled, because a file system is outside the model.
- The `Interrupted` flag: nothing in these files ever sets it.
- Short reads: the driver passes `fread`'s count, but the demultiplexer always reads a full 188-byte buffer, with stale bytes from the last read. The model takes whole 188-byte packets.
- The `buf_len` arguments: the decoders never read them.
- The CRC_32 of the PAT: its far end must lie inside the bytes available, but its value is never checked, in the code or in the model.
- The PAT and PMT header fields the decoders read but never use (table_id, version_number, section numbers, reserved bits): they have no effect.
- The pointer_field: like the code, the model reads the section at byte 5 of the packet.
- TsTable.DecodePmt: the descriptor accumulator stored in the PMT table is not modelled. Nothing reads it. Only the bounds of the byte it reads are checked.
- The PES header flags the code never reads (priority, alignment, copyright, ESCR, DSM trick mode and the rest): they have no effect.
- The stream-id range check of `validate_pes_header`: it is commented out in the code.
- Behaviour after a fault: the model stops at the first read or write outside an array. What the C program does after undefined behaviour is not modelled.
- Demux.Run: relates the whole output to the packets only through `Demux.RunWritesOwnPids` and `Demux.RunKeepsOutput`, not chunk by chunk to each packet's `Demux.Step`. `Demux.Run` is that concatenation by definition.

## Findings

| source | as written | input that shows it | evidently intended | confidence | as-written member | corrected member |
|---|---|---|---|---|---|---|
| ts2es/ts2es.c:314-319 | `p_es` is still NULL when the transport-error branch sets `p_es->synced = 0`, so any admitted, unscrambled packet with transport_error_indicator set writes through a NULL pointer | configuration (stream type -1, PIDs 0x100..0x100); packet 47 81 00 10 followed by 184 bytes 0xFF (PID 0x100, transport error, payload only) | drop the packet and take the PID's existing record, if any, out of sync | high; not executed | Demux.GateAsWritten, Demux.TransportErrorDereferencesNull | Demux.Gate |

=== FILE: demux.dfy ===
/**
 * The demultiplexer context and `ts2es_demux_ts_packet`: one 188-byte
 * transport stream packet at a time, it follows the PAT to the PMT, chooses
 * the PIDs to extract (a configured range, the PIDs of one stream type, or
 * the first PID that starts a valid PES packet), checks continuity and
 * hands the PES payload of the chosen PIDs to the reassembler.
 */
module Demux {
  import opened Util
  import opened TsFormat
  import opened TsTable
  import opened EsStream
  import opened PesAssembler

  /**
   * The caller's parameters (`ts2es_param_t` without the file names and the
   * log level): the stream type to catch, and the PID window.  A negative
   * stream type leaves the window alone; a `pidMax` of -1 asks for the first
   * PID that carries a valid PES header.
   */
  datatype Config = Config(streamTypeToCatch: int, pidMin: int, pidMax: int)

  /** `ts2es_t`: the parameters as updated so far, the counters, the PSI state and the ES records in use. */
  datatype Demux = Demux(
    param: Config,
    neverSynced: bool,
    totalBytes: int,
    totalPackets: int,
    bOutput: bool,
    pmtPid: int,
    pmt: seq<PmtEntry>,
    es: seq<EsRecord>)

  /**
   * What one packet leaves behind: the context, the value the C function
   * returns (0 only when the sync byte is wrong, which ends the `test.c`
   * driver's loop), the chunks the sink wrote, and the ES bytes the packet
   * contributed to its stream.
   */
  datatype Outcome = Outcome(ctx: Demux, ret: int, out: seq<Chunk>, accepted: seq<byte>)

  /**
   * The invariant of the context: counters in their `uint32_t` range, a
   * full-size PMT table, and a registry of at most MAX_NUM_ES records with
   * distinct PIDs, none of them the null PID.
   */
  predicate Valid(d: Demux)
  {
    && 0 <= d.totalBytes < TWO_32 && 0 <= d.totalPackets < TWO_32
    && -1 <= d.pmtPid < 0x2000
    && |d.pmt| == MAX_NUM_ES
    && ValidRegistry(d.es)
    && NoNullPid(d.es)
  }

  /** Null packets never get a record. */
  predicate NoNullPid(es: seq<EsRecord>)
  {
    forall i | 0 <= i < |es| :: es[i].pid != NULL_PID
  }

  /**
   * `ts2es_create`: a configuration with neither a usable PID range nor a
   * positive stream type is refused (the C program exits); otherwise the
   * context starts empty with output off.
   */
  function Create(cfg: Config): (d: Option<Demux>)
    ensures d.Some? ==> Valid(d.value) && d.value.param == cfg
    ensures d.Some? ==> d.value.es == [] && d.value.neverSynced && !d.value.bOutput
    ensures d.Some? ==> d.value.totalBytes == 0 && d.value.totalPackets == 0 && d.value.pmtPid == PAT_PID
  {
    if (cfg.pidMin <= 0 || cfg.pidMax < cfg.pidMin) && cfg.streamTypeToCatch <= 0 then None
    else Some(Demux(cfg, true, 0, 0, false, 0, EmptyPmtTable(), []))
  }

  /**
   * A context is created exactly for a configuration that names a PID
   * range of positive PIDs or a positive stream type to catch.  So the
   * automatic choice of PID (`pidMax` = -1) is only reachable together
   * with a stream type, whose first PMT then replaces the window.
   */
  lemma CreateAccepts(cfg: Config)
    ensures Create(cfg).Some? <==> (0 < cfg.pidMin <= cfg.pidMax || cfg.streamTypeToCatch > 0)
    ensures Create(cfg).Some? && cfg.pidMax == -1 ==> cfg.streamTypeToCatch > 0
  {
  }

  // ---------------------------------------------------------------------------
  // PID window

  /** The window test of the demultiplexer. */
  predicate InWindow(p: Config, pid: int)
  {
    p.pidMin <= pid <= p.pidMax
  }

  /** A packet is looked at when its PID is in the window or no PID has been chosen yet. */
  predicate Admits(p: Config, pid: int)
  {
    InWindow(p, pid) || p.pidMax == -1
  }

  /**
   * The number of PMT slots the window scan reads from `i` on: it stops at
   * the first slot whose PID is 0, which is how the table marks its end.
   */
  function ListedCount(pmt: seq<PmtEntry>, i: nat): (n: nat)
    requires i <= |pmt|
    ensures i <= n <= |pmt|
    ensures forall k | i <= k < n :: pmt[k].pid != 0
    ensures n < |pmt| ==> pmt[n].pid == 0
    decreases |pmt| - i
  {
    if i == |pmt| || pmt[i].pid == 0 then i else ListedCount(pmt, i + 1)
  }

  /** The listed slot `k` announces a stream of type `st`. */
  predicate Caught(pmt: seq<PmtEntry>, st: int, i: nat, k: int)
    requires i <= |pmt|
  {
    i <= k < ListedCount(pmt, i) && pmt[k].streamType == st
  }

  /**
   * The window loop of `ts2es_demux_ts_packet` from slot `i` on, with the
   * bounds found so far: each listed slot of type `st` widens the window to
   * cover its PID.  The result is the smallest window that contains the
   * starting one and every such PID.
   */
  function ScanWindow(pmt: seq<PmtEntry>, st: int, i: nat, lo: int, hi: int): (w: (int, int))
    requires i <= |pmt|
    ensures w.0 <= lo && w.1 >= hi
    ensures forall k | Caught(pmt, st, i, k) :: w.0 <= pmt[k].pid <= w.1
    ensures w.0 == lo || exists k | Caught(pmt, st, i, k) :: w.0 == pmt[k].pid
    ensures w.1 == hi || exists k | Caught(pmt, st, i, k) :: w.1 == pmt[k].pid
    decreases |pmt| - i
  {
    if i == |pmt| || pmt[i].pid == 0 then (lo, hi)
    else
      var pid := pmt[i].pid;
      var w := if pmt[i].streamType == st
               then ScanWindow(pmt, st, i + 1, if lo > pid then pid else lo, if hi < pid then pid else hi)
               else ScanWindow(pmt, st, i + 1, lo, hi);
      assert ListedCount(pmt, i) == ListedCount(pmt, i + 1);
      assert forall k | Caught(pmt, st, i + 1, k) :: Caught(pmt, st, i, k);
      w
  }

  /**
   * The window chosen from a PMT for stream type `st`: from the lowest to
   * the highest PID of that type among the listed streams, or the empty
   * window [0x1FFE, 1] when there is none.
   */
  function PidWindow(pmt: seq<PmtEntry>, st: int): (w: (int, int))
    ensures w.0 <= 0x1FFE && 1 <= w.1
    ensures forall k | Caught(pmt, st, 0, k) :: w.0 <= pmt[k].pid <= w.1
    ensures (forall k | 0 <= k < |pmt| :: !Caught(pmt, st, 0, k)) ==> w == (0x1FFE, 1)
    ensures w.0 == 0x1FFE || exists k | Caught(pmt, st, 0, k) :: w.0 == pmt[k].pid
    ensures w.1 == 1 || exists k | Caught(pmt, st, 0, k) :: w.1 == pmt[k].pid
  {
    ScanWindow(pmt, st, 0, 0x1FFE, 1)
  }

  // ---------------------------------------------------------------------------
  // Program specific information

  /**
   * The PSI part of `ts2es_demux_ts_packet`.  On the PAT's PID the section
   * at byte 5 (the pointer field is taken to be 0) gives the PMT PID and
   * clears the PMT table; on the PMT PID the section fills the table,
   * switches output on and, when a stream type is to be caught, replaces the
   * window by the one the table yields for it.
   */
  function Tables(d: Demux, pkt: seq<byte>, pid: int): (r: Result<Demux>)
    requires Valid(d) && |pkt| == TS_PACKET_SIZE && 0 <= pid < 0x2000
    ensures r.Ok? ==> Valid(r.value)
    ensures r.Ok? ==> r.value == d.(param := r.value.param, bOutput := r.value.bOutput,
                                    pmtPid := r.value.pmtPid, pmt := r.value.pmt)
    ensures pid != PAT_PID && pid != d.pmtPid ==> r == Ok(d)
    ensures pid == PAT_PID ==> (r.Ok? <==> PatFits(pkt[5..]))
    ensures pid == PAT_PID && r.Ok? ==>
              && r.value.pmtPid == LastProgramPid(PatEntries(pkt[5..]), -1)
              && r.value.pmt == EmptyPmtTable()
              && r.value.param == d.param && r.value.bOutput == d.bOutput
    ensures pid != PAT_PID && pid == d.pmtPid && r.Ok? ==>
              && r.value.bOutput && r.value.pmtPid == d.pmtPid
              && DecodePmt(pkt[5..]).Ok? && |DecodePmt(pkt[5..]).value| <= MAX_NUM_ES
              && (forall i | 0 <= i < |DecodePmt(pkt[5..]).value| :: r.value.pmt[i] == DecodePmt(pkt[5..]).value[i])
              && (forall i | |DecodePmt(pkt[5..]).value| <= i < MAX_NUM_ES :: r.value.pmt[i] == d.pmt[i])
    ensures pid != PAT_PID && pid == d.pmtPid && r.Ok? && d.param.streamTypeToCatch >= 0 ==>
              && r.value.param == d.param.(pidMin := PidWindow(r.value.pmt, d.param.streamTypeToCatch).0,
                                           pidMax := PidWindow(r.value.pmt, d.param.streamTypeToCatch).1)
              && forall k | Caught(r.value.pmt, d.param.streamTypeToCatch, 0, k) ::
                   InWindow(r.value.param, r.value.pmt[k].pid)
    ensures pid != PAT_PID && r.Ok? && d.param.streamTypeToCatch < 0 ==> r.value.param == d.param
    ensures r.Err? ==> r.fault == SectionOverrun || r.fault == PmtTableOverflow
  {
    var sec := pkt[5..];
    if pid == PAT_PID then
      match DecodePat(sec)
      case Err(e) => Err(e)
      case Ok(pmtPid) => Ok(d.(pmtPid := pmtPid, pmt := EmptyPmtTable()))
    else if pid == d.pmtPid then
      match DecodePmt(sec)
      case Err(e) => Err(e)
      case Ok(entries) =>
        var (pmt, overflow) := StorePmt(d.pmt, entries);
        if overflow then Err(PmtTableOverflow)
        else
          var st := d.param.streamTypeToCatch;
          var param := if st >= 0 then
                         var w := PidWindow(pmt, st);
                         d.param.(pidMin := w.0, pidMax := w.1)
                       else d.param;
          Ok(d.(param := param, bOutput := true, pmt := pmt))
    else Ok(d)
  }

  // ---------------------------------------------------------------------------
  // Scrambled packets and transport errors

  /** The registry with the record for `pid`, if there is one, out of sync. */
  function Desync(es: seq<EsRecord>, pid: int): (es': seq<EsRecord>)
    ensures |es'| == |es|
    ensures forall i | 0 <= i < |es| :: es'[i] == es[i].(synced := es'[i].synced)
    ensures forall i | 0 <= i < |es| :: es'[i].synced <==> es[i].synced && es[i].pid != pid
  {
    seq(|es|, i requires 0 <= i < |es| => if es[i].pid == pid then es[i].(synced := false) else es[i])
  }

  /**
   * The checks on an admitted packet, as written: a scrambled packet is
   * dropped, and a transport error is meant to drop the stream's sync but
   * writes through the ES record pointer, which is still NULL at that point
   * of `ts2es_demux_ts_packet`.  `None` lets the packet go on.
   */
  function GateAsWritten(d: Demux, pkt: seq<byte>, pid: int): (g: Result<Option<Outcome>>)
    requires Valid(d) && |pkt| == TS_PACKET_SIZE && 0 <= pid < 0x2000
    ensures g.Err? <==> Admits(d.param, pid) && Scrambling(pkt) == 0 && TransError(pkt) == 1
    ensures g.Err? ==> g.fault == NullRecord
    ensures g.Ok? ==> (g.value.Some? <==> Admits(d.param, pid) && Scrambling(pkt) != 0)
    ensures g.Ok? && g.value.Some? ==> g.value.value == Outcome(d, 1, [], [])
  {
    if Admits(d.param, pid) && Scrambling(pkt) != 0 then Ok(Some(Outcome(d, 1, [], [])))
    else if Admits(d.param, pid) && TransError(pkt) == 1 then Err(NullRecord)
    else Ok(None)
  }

  /**
   * The checks on an admitted packet as evidently intended: a scrambled
   * packet is dropped, and a packet with a transport error is dropped and
   * takes its stream, if it has a record, out of sync, so that the next
   * bytes are only kept from a frame header on.
   */
  function Gate(d: Demux, pkt: seq<byte>, pid: int): (g: Option<Outcome>)
    requires Valid(d) && |pkt| == TS_PACKET_SIZE && 0 <= pid < 0x2000
    ensures g.Some? <==> Admits(d.param, pid) && (Scrambling(pkt) != 0 || TransError(pkt) == 1)
    ensures g.Some? ==> g.value.ret == 1 && g.value.out == [] && g.value.accepted == []
    ensures g.Some? ==> Valid(g.value.ctx) && g.value.ctx == d.(es := g.value.ctx.es)
    ensures g.Some? ==> |g.value.ctx.es| == |d.es|
    ensures g.Some? ==> forall i | 0 <= i < |d.es| ::
              g.value.ctx.es[i] == d.es[i].(synced := g.value.ctx.es[i].synced)
    ensures g.Some? ==> forall i | 0 <= i < |d.es| && d.es[i].pid != pid :: g.value.ctx.es[i] == d.es[i]
    ensures g.Some? && Scrambling(pkt) == 0 ==> forall i | 0 <= i < |d.es| && d.es[i].pid == pid ::
              !g.value.ctx.es[i].synced
  {
    if Admits(d.param, pid) && Scrambling(pkt) != 0 then Some(Outcome(d, 1, [], []))
    else if Admits(d.param, pid) && TransError(pkt) == 1 then
      var es := Desync(d.es, pid);
      assert forall i | 0 <= i < |es| :: ValidRecord(es[i]);
      Some(Outcome(d.(es := es), 1, [], []))
    else None
  }

  /**
   * Both gates agree on every packet except an admitted, unscrambled one
   * with a transport error, which the code as written cannot survive.
   */
  lemma GatesAgree(d: Demux, pkt: seq<byte>, pid: int)
    requires Valid(d) && |pkt| == TS_PACKET_SIZE && 0 <= pid < 0x2000
    ensures GateAsWritten(d, pkt, pid).Ok? ==> GateAsWritten(d, pkt, pid).value == Gate(d, pkt, pid)
    ensures GateAsWritten(d, pkt, pid).Err? ==> Gate(d, pkt, pid).Some?
  {
  }

  /**
   * A concrete packet that shows the fault: PID 0x100 in a window of its
   * own, payload only, transport_error_indicator set.
   */
  lemma TransportErrorDereferencesNull()
    ensures Create(Config(-1, 0x100, 0x100)).Some?
    ensures GateAsWritten(Create(Config(-1, 0x100, 0x100)).value, [0x47, 0x81, 0x00, 0x10] + seq(184, _ => 0xFF), 0x100)
            == Err(NullRecord)
  {
    var pkt: seq<byte> := [0x47, 0x81, 0x00, 0x10] + seq(184, _ => 0xFF);
    assert pkt[3] == 0x10 && pkt[1] == 0x81;
    assert Scrambling(pkt) == 0 && TransError(pkt) == 1;
  }

  // ---------------------------------------------------------------------------
  // Payload

  /**
   * Where the payload starts: after the 4-byte header, and after the
   * adaptation field when the packet has both.  A length byte larger than
   * the packet puts it past the end.
   */
  function PayloadOffset(pkt: seq<byte>): (off: int)
    requires |pkt| == TS_PACKET_SIZE
    ensures 4 <= off <= 5 + 255
    ensures off == 4 <==> Adaptation(pkt) != 3
  {
    if Adaptation(pkt) == 3 then 5 + AdaptLen(pkt) else 4
  }

  /**
   * A packet with both an adaptation field and a payload, as a multiplexer
   * writes it (section 2.4.3.4 of ISO/IEC 13818-1): the header, the length
   * byte, that many adaptation bytes, then the payload.  The payload read
   * back is exactly the one written, all 184 - (length + 1) bytes of it.
   */
  lemma PayloadAfterAdaptation(h: TsHeader, len: byte, adapt: seq<byte>, payload: seq<byte>)
    requires WellFormedTsHeader(h) && h.adaptation == 3
    requires |adapt| == len as int && 4 + 1 + |adapt| + |payload| == TS_PACKET_SIZE
    ensures var pkt := BuildTsHeader(h) + [len] + adapt + payload;
            && |pkt| == TS_PACKET_SIZE
            && PayloadOffset(pkt) == 5 + len as int
            && Payload(pkt, PayloadOffset(pkt)) == payload
            && |payload| == TS_PACKET_SIZE - 4 - (len as int + 1)
  {
    var hdr := BuildTsHeader(h);
    var pkt := hdr + [len] + adapt + payload;
    ControlRoundTrip(h);
    assert pkt[3] == hdr[3] && pkt[4] == len;
    assert Adaptation(pkt) == 3;
    assert PayloadOffset(pkt) == 5 + len as int;
    assert pkt[5 + |adapt|..] == payload;
  }

  /**
   * A packet without an adaptation field in front of its payload: the
   * payload is everything after the 4-byte header.
   */
  lemma PayloadAfterHeader(h: TsHeader, payload: seq<byte>)
    requires WellFormedTsHeader(h) && h.adaptation != 3
    requires 4 + |payload| == TS_PACKET_SIZE
    ensures var pkt := BuildTsHeader(h) + payload;
            && PayloadOffset(pkt) == 4
            && Payload(pkt, PayloadOffset(pkt)) == payload
  {
    var hdr := BuildTsHeader(h);
    var pkt := hdr + payload;
    ControlRoundTrip(h);
    assert pkt[3] == hdr[3];
    assert Adaptation(pkt) == Adaptation(hdr);
    assert pkt[4..] == payload;
  }

  /** The payload bytes, none when the offset lies past the packet. */
  function Payload(pkt: seq<byte>, off: int): (p: seq<byte>)
    requires |pkt| == TS_PACKET_SIZE && 4 <= off
    ensures off <= |pkt| ==> p == pkt[off..]
    ensures |p| <= TS_PACKET_SIZE - 4
  {
    if off <= |pkt| then pkt[off..] else []
  }

  /**
   * `validate_pes_header` reading its bytes one at a time, as the C
   * short-circuit does: a start code byte that differs rejects the header
   * before any later byte is read, and a byte past the end of the payload
   * is a fault.
   */
  function ProbePesHeader(p: seq<byte>): (r: Result<bool>)
    ensures r.Err? ==> r.fault == PayloadOverrun && |p| < 7
    ensures |p| >= 7 ==> r == Ok(ValidatePesHeader(p))
    ensures |p| >= 1 && p[0] != 0x00 ==> r == Ok(false)
    ensures r.Err? <==> |p| < 7 && forall i | 0 <= i < |p| && i < 3 :: p[i] == (if i == 2 then 0x01 else 0x00)
  {
    if |p| < 1 then Err(PayloadOverrun)
    else if p[0] != 0x00 then Ok(false)
    else if |p| < 2 then Err(PayloadOverrun)
    else if p[1] != 0x00 then Ok(false)
    else if |p| < 3 then Err(PayloadOverrun)
    else if p[2] != 0x01 then Ok(false)
    else if |p| < 7 then Err(PayloadOverrun)
    else Ok(p[6] & 0xC0 == 0x80 && p[6] & 0x30 == 0)
  }

  /**
   * While no PID has been chosen, the first packet that starts a PES packet
   * with a valid header fixes the window to its own PID.
   */
  function AutoSelect(d: Demux, pkt: seq<byte>, pid: int, off: int): (r: Result<Demux>)
    requires Valid(d) && |pkt| == TS_PACKET_SIZE && 0 <= pid < 0x2000 && 4 <= off
    ensures r.Ok? ==> Valid(r.value) && r.value == d.(param := r.value.param)
    ensures !(d.param.pidMax == -1 && PayloadStart(pkt) == 1) ==> r == Ok(d)
    ensures d.param.pidMax == -1 && PayloadStart(pkt) == 1 && off + 7 <= |pkt| ==>
              r.Ok? && (InWindow(r.value.param, pid) <==> ValidatePesHeader(pkt[off..]))
    ensures r.Ok? && r.value.param != d.param ==>
              r.value.param == d.param.(pidMin := pid, pidMax := pid)
    ensures r.Err? ==> r.fault == PayloadOverrun
  {
    if d.param.pidMax == -1 && PayloadStart(pkt) == 1 then
      match ProbePesHeader(Payload(pkt, off))
      case Err(e) => Err(e)
      case Ok(valid) =>
        if valid then Ok(d.(param := d.param.(pidMin := pid, pidMax := pid))) else Ok(d)
    else Ok(d)
  }

  // ---------------------------------------------------------------------------
  // Extraction

  /** The buffered bytes of the stream on `pid`, none when it has no record. */
  function BufferOf(es: seq<EsRecord>, pid: int): (b: seq<byte>)
    ensures (forall i | 0 <= i < |es| :: es[i].pid != pid) ==> b == []
  {
    match IndexOf(es, pid, 0)
    case Some(k) => es[k].buffer
    case None => []
  }

  /**
   * The record `ts2es_find_es` hands out for `pid`: the stream's own
   * record, or the fresh one it would add.
   */
  function RecordFor(es: seq<EsRecord>, pid: int): (r: EsRecord)
    requires 0 <= pid < 0x2000
    ensures r.pid == pid && r.buffer == BufferOf(es, pid)
    ensures (forall i | 0 <= i < |es| :: ValidRecord(es[i])) ==> ValidRecord(r)
    ensures (forall i | 0 <= i < |es| :: es[i].pid != pid) ==> r == NewRecord(pid)
    ensures FindEs(es, pid).Ok? ==> r == FindEs(es, pid).value.0[FindEs(es, pid).value.1]
  {
    match IndexOf(es, pid, 0)
    case Some(k) => es[k]
    case None => NewRecord(pid)
  }

  /** With distinct PIDs, the record that carries `pid` is the one found. */
  lemma BufferAt(es: seq<EsRecord>, pid: int, k: nat)
    requires UniquePids(es) && k < |es| && es[k].pid == pid
    ensures BufferOf(es, pid) == es[k].buffer
    ensures 0 <= pid < 0x2000 ==> RecordFor(es, pid) == es[k]
  {
    var j := IndexOf(es, pid, 0);
    assert j.Some?;
  }

  /**
   * Installing the updated record of the stream on `pid` in the registry
   * `FindEs` returned keeps the context's registry invariant, leaves the
   * other streams alone, and makes the stream's buffer the record's.
   */
  lemma Install(es0: seq<EsRecord>, es: seq<EsRecord>, k: nat, pid: int, rec: EsRecord)
    requires ValidRegistry(es0) && NoNullPid(es0)
    requires 0 <= pid < 0x2000 && pid != NULL_PID
    requires FindEs(es0, pid) == Ok((es, k))
    requires ValidRecord(rec) && rec.pid == pid
    ensures k < |es| && BufferOf(es0, pid) == es[k].buffer
    ensures ValidRegistry(es[k := rec]) && NoNullPid(es[k := rec])
    ensures BufferOf(es[k := rec], pid) == rec.buffer
    ensures RecordFor(es[k := rec], pid) == rec
    ensures |es0| <= |es| <= |es0| + 1
    ensures forall i | 0 <= i < |es0| && es0[i].pid != pid :: es[k := rec][i] == es0[i]
  {
    FindEsKeepsRegistry(es0, pid);
    UpdateKeepsRegistry(es, k, rec);
    BufferAt(es[k := rec], pid, k);
    if exists i | 0 <= i < |es0| :: es0[i].pid == pid {
      BufferAt(es0, pid, k);
    }
    var es' := es[k := rec];
    forall i | 0 <= i < |es|
      ensures es'[i].pid != NULL_PID
    {
      if i < |es0| { assert es'[i].pid == es0[i].pid; }
    }
  }

  /** The stream is still synced once the packet's counter `cc` is checked. */
  predicate StaysSynced(r: EsRecord, cc: int)
  {
    r.synced && r.continuityCount == cc
  }

  /**
   * Extraction when the payload pointer lies past the packet (an
   * adaptation field longer than the packet): a start packet reads its PES
   * header through it and faults.  A continuation packet reads nothing when
   * the stream `r` has no PES header yet or nothing left of its PES packet,
   * or when it is out of sync and fewer than four bytes are left, too few
   * for the sync scan; those bytes are still counted off the PES packet.
   * Any other continuation reads through the pointer and faults.
   */
  function ExtractPastPacket(r: EsRecord, start: bool, neverSynced: bool): (x: Result<Extracted>)
    requires ValidRecord(r)
    ensures x.Ok? <==> !start && (|| r.pesStreamId == 0 || SizeT(r.pesRemaining) == 0
                                  || (!r.synced && SizeT(r.pesRemaining) < 4))
    ensures x.Ok? ==> x.value == Extracted(x.value.rec, [], neverSynced, []) && ValidRecord(x.value.rec)
    ensures x.Ok? ==> x.value.rec == r.(pesRemaining := if r.pesStreamId == 0 then r.pesRemaining else 0)
    ensures x.Err? ==> x.fault == PayloadOverrun
  {
    if !start && (r.pesStreamId == 0 || SizeT(r.pesRemaining) == 0) then
      Ok(Extracted(r, [], neverSynced, []))
    else if !start && !r.synced && SizeT(r.pesRemaining) < 4 then
      Ok(Extracted(r.(pesRemaining := 0), [], neverSynced, []))
    else Err(PayloadOverrun)
  }

  /**
   * The bytes a packet hands on, judged on the sync flag as the continuity
   * check of counter `cc` leaves it: on a continuation packet those left of
   * the PES packet; on a start packet those after its PES header when the
   * header is taken, and none when it is not.  The requires are what
   * extraction on the checked record promises.
   */
  lemma FeedScanned(rec0: EsRecord, cc: int, pkt: seq<byte>, off: int, start: bool, bOutput: bool,
                    neverSynced: bool, x: Result<Extracted>)
    requires 0 <= cc < 16 && 0 <= off <= |pkt|
    requires x.Ok? && !start && rec0.pesStreamId != 0 ==>
               Scanned(ContinuityCheck(rec0, cc).synced, Clip(pkt[off..], ContinuityCheck(rec0, cc).pesRemaining),
                       neverSynced, x.value)
    requires x.Ok? && start && off + 19 <= |pkt| && Takes(ContinuityCheck(rec0, cc), pkt[off..]) ==>
               Started(ContinuityCheck(rec0, cc), ReadPesFields(pkt[off..]), pkt[off..], bOutput, neverSynced, x.value)
    requires x.Ok? && start && off + 19 <= |pkt| && !Takes(ContinuityCheck(rec0, cc), pkt[off..]) ==>
               x.value.accepted == []
    ensures x.Ok? && !start && rec0.pesStreamId != 0 ==>
              Scanned(StaysSynced(rec0, cc), Clip(pkt[off..], rec0.pesRemaining), neverSynced, x.value)
    ensures x.Ok? && start && off + 19 <= |pkt| && Takes(rec0, pkt[off..]) ==>
              && off + 9 + PesHeadLen(pkt[off..]) as int <= |pkt|
              && Scanned(StaysSynced(rec0, cc), pkt[off + 9 + PesHeadLen(pkt[off..]) as int..], neverSynced, x.value)
    ensures x.Ok? && start && off + 19 <= |pkt| && !Takes(rec0, pkt[off..]) ==> x.value.accepted == []
  {
    var rec := ContinuityCheck(rec0, cc);
    var p := pkt[off..];
    assert rec.synced == StaysSynced(rec0, cc) && rec.pesRemaining == rec0.pesRemaining;
    if x.Ok? && start && off + 19 <= |pkt| {
      assert Takes(rec0, p) == Takes(rec, p);
      if Takes(rec, p) {
        var hl := PesHeadLen(p) as int;
        assert ReadPesFields(p).headerLen == hl;
        assert p[9 + hl..] == pkt[off + 9 + hl..];
      }
    }
  }

  /**
   * The part of `Feed` for a payload that starts inside the packet: the
   * continuity check on the packet's counter, then extraction, so the
   * bytes are judged on the sync flag as the check leaves it.
   */
  function FeedInPacket(rec0: EsRecord, pkt: seq<byte>, off: int, bOutput: bool, neverSynced: bool): (x: Result<Extracted>)
    requires ValidRecord(rec0) && |pkt| == TS_PACKET_SIZE && 4 <= off <= TS_PACKET_SIZE
    ensures x.Ok? ==> ValidRecord(x.value.rec) && x.value.rec.pid == rec0.pid
    ensures x.Ok? ==> x.value.rec.continuityCount == (ContCount(pkt) as int + 1) % 16
    ensures x.Ok? ==> Data(x.value.out) + x.value.rec.buffer == rec0.buffer + x.value.accepted
    ensures x.Ok? ==> |x.value.out| <= 2 && OnPid(x.value.out, rec0.pid)
    ensures x.Ok? && !bOutput ==> x.value.out == []
    ensures x.Ok? && PayloadStart(pkt) != 1 && rec0.pesStreamId != 0 ==>
              Scanned(StaysSynced(rec0, ContCount(pkt) as int), Clip(pkt[off..], rec0.pesRemaining),
                      neverSynced, x.value)
    ensures x.Ok? && PayloadStart(pkt) == 1 && off + 19 <= TS_PACKET_SIZE && Takes(rec0, pkt[off..]) ==>
              && off + 9 + PesHeadLen(pkt[off..]) as int <= |pkt|
              && Scanned(StaysSynced(rec0, ContCount(pkt) as int), pkt[off + 9 + PesHeadLen(pkt[off..]) as int..],
                         neverSynced, x.value)
    ensures x.Ok? && PayloadStart(pkt) == 1 && off + 19 <= TS_PACKET_SIZE && !Takes(rec0, pkt[off..]) ==>
              x.value.accepted == []
    ensures x.Err? ==> x.fault == PayloadOverrun || x.fault == BufferOverflow
  {
    var rec := ContinuityCheck(rec0, ContCount(pkt) as int);
    var start := PayloadStart(pkt) == 1;
    var x := Extract(rec, pkt[off..], start, bOutput, neverSynced);
    FeedScanned(rec0, ContCount(pkt) as int, pkt, off, start, bOutput, neverSynced, x);
    x
  }

  /**
   * One packet for the stream `rec0`: the continuity check on the packet's
   * counter, then extraction of the payload, so a counter that breaks the
   * run already takes the stream out of sync for this packet's bytes.
   */
  function Feed(rec0: EsRecord, pkt: seq<byte>, off: int, bOutput: bool, neverSynced: bool): (x: Result<Extracted>)
    requires ValidRecord(rec0) && |pkt| == TS_PACKET_SIZE && 4 <= off
    ensures x.Ok? ==> ValidRecord(x.value.rec) && x.value.rec.pid == rec0.pid
    ensures x.Ok? ==> x.value.rec.continuityCount == (ContCount(pkt) as int + 1) % 16
    ensures x.Ok? ==> Data(x.value.out) + x.value.rec.buffer == rec0.buffer + x.value.accepted
    ensures x.Ok? ==> |x.value.out| <= 2 && OnPid(x.value.out, rec0.pid)
    ensures x.Ok? && !bOutput ==> x.value.out == []
    ensures x.Ok? && off <= TS_PACKET_SIZE && PayloadStart(pkt) != 1 && rec0.pesStreamId != 0 ==>
              Scanned(StaysSynced(rec0, ContCount(pkt) as int), Clip(pkt[off..], rec0.pesRemaining),
                      neverSynced, x.value)
    ensures x.Ok? && PayloadStart(pkt) == 1 && off + 19 <= TS_PACKET_SIZE && Takes(rec0, pkt[off..]) ==>
              && off + 9 + PesHeadLen(pkt[off..]) as int <= |pkt|
              && Scanned(StaysSynced(rec0, ContCount(pkt) as int), pkt[off + 9 + PesHeadLen(pkt[off..]) as int..],
                         neverSynced, x.value)
    ensures x.Ok? && PayloadStart(pkt) == 1 && off + 19 <= TS_PACKET_SIZE && !Takes(rec0, pkt[off..]) ==>
              x.value.accepted == []
    ensures off > TS_PACKET_SIZE ==>
              (x.Ok? <==> PayloadStart(pkt) != 1 &&
                          (|| rec0.pesStreamId == 0 || SizeT(rec0.pesRemaining) == 0
                           || (!StaysSynced(rec0, ContCount(pkt) as int) && SizeT(rec0.pesRemaining) < 4)))
    ensures off > TS_PACKET_SIZE && x.Ok? ==>
              && x.value.out == [] && x.value.accepted == [] && x.value.neverSynced == neverSynced
              && x.value.rec.pesRemaining == (if rec0.pesStreamId == 0 then rec0.pesRemaining else 0)
    ensures x.Err? ==> x.fault == PayloadOverrun || x.fault == BufferOverflow
  {
    if off > TS_PACKET_SIZE then
      var rec := ContinuityCheck(rec0, ContCount(pkt) as int);
      assert rec.synced == StaysSynced(rec0, ContCount(pkt) as int);
      ExtractPastPacket(rec, PayloadStart(pkt) == 1, neverSynced)
    else FeedInPacket(rec0, pkt, off, bOutput, neverSynced)
  }

  /**
   * `r` is what the stream on `pid` makes of the packet: its record (or
   * the fresh one) goes through `Feed`, a full registry refuses a new PID,
   * and a successful outcome carries Feed's chunks, kept bytes and
   * never-synced flag, with Feed's record installed for `pid`.
   */
  predicate Fed(d: Demux, pkt: seq<byte>, pid: int, off: int, r: Result<Outcome>)
    requires Valid(d) && |pkt| == TS_PACKET_SIZE && 0 <= pid < 0x2000 && 4 <= off
  {
    var x := Feed(RecordFor(d.es, pid), pkt, off, d.bOutput, d.neverSynced);
    && (FindEs(d.es, pid).Err? ==> r == Err(EsTableOverflow))
    && (FindEs(d.es, pid).Ok? ==> (r.Ok? <==> x.Ok?))
    && (r.Ok? ==> && x.Ok? && r.value.out == x.value.out && r.value.accepted == x.value.accepted
                  && r.value.ctx.neverSynced == x.value.neverSynced
                  && RecordFor(r.value.ctx.es, pid) == x.value.rec)
  }

  /**
   * The last part of `ts2es_demux_ts_packet` for a PID in the window: look
   * the record up (or create it) and feed it the packet.
   */
  function Process(d: Demux, pkt: seq<byte>, pid: int, off: int): (r: Result<Outcome>)
    requires Valid(d) && |pkt| == TS_PACKET_SIZE && 0 <= pid < 0x2000 && pid != NULL_PID && 4 <= off
    ensures Fed(d, pkt, pid, off, r)
    ensures r.Ok? ==> Valid(r.value.ctx) && r.value.ret == 1
    ensures r.Ok? ==> r.value.ctx == d.(neverSynced := r.value.ctx.neverSynced, es := r.value.ctx.es)
    ensures r.Ok? ==> OnPid(r.value.out, pid)
    ensures r.Ok? && !d.bOutput ==> r.value.out == []
    ensures r.Ok? ==> Data(r.value.out) + BufferOf(r.value.ctx.es, pid) == BufferOf(d.es, pid) + r.value.accepted
    ensures r.Ok? ==> |d.es| <= |r.value.ctx.es| <= |d.es| + 1
    ensures r.Ok? ==> forall i | 0 <= i < |d.es| && d.es[i].pid != pid :: r.value.ctx.es[i] == d.es[i]
    ensures r.Err? && r.fault == EsTableOverflow ==>
              |d.es| == MAX_NUM_ES && forall i | 0 <= i < |d.es| :: d.es[i].pid != pid
    ensures r.Err? ==> r.fault in {EsTableOverflow, PayloadOverrun, BufferOverflow}
  {
    match FindEs(d.es, pid)
    case Err(e) => Err(e)
    case Ok((es, k)) =>
      FindEsKeepsRegistry(d.es, pid);
      match Feed(es[k], pkt, off, d.bOutput, d.neverSynced)
      case Err(e) => Err(e)
      case Ok(x) =>
        Install(d.es, es, k, pid, x.rec);
        Ok(Outcome(d.(es := es[k := x.rec], neverSynced := x.neverSynced), 1, x.out, x.accepted))
  }

  // ---------------------------------------------------------------------------
  // One packet

  /**
   * `r` is what a packet the gate lets through, with a payload and a PID
   * other than the null PID, comes to: the automatic choice of PID is made
   * first; a PID then in the window is fed to its stream, any other leaves
   * the streams, the sink and the kept bytes as they were.
   */
  predicate Routed(d: Demux, pkt: seq<byte>, pid: int, r: Result<Outcome>)
    requires Valid(d) && |pkt| == TS_PACKET_SIZE && 0 <= pid < 0x2000
  {
    var a := AutoSelect(d, pkt, pid, PayloadOffset(pkt));
    && (a.Err? ==> r == Err(a.fault))
    && (a.Ok? && InWindow(a.value.param, pid) ==> Fed(a.value, pkt, pid, PayloadOffset(pkt), r))
    && (a.Ok? && !InWindow(a.value.param, pid) ==> r == Ok(Outcome(a.value, 1, [], [])))
  }

  /**
   * The packet after the PSI: the admitted-packet checks, packets without
   * payload and null packets, the automatic choice of PID, and extraction
   * for a PID in the window.
   */
  function Route(d: Demux, pkt: seq<byte>, pid: int): (r: Result<Outcome>)
    requires Valid(d) && |pkt| == TS_PACKET_SIZE && 0 <= pid < 0x2000
    ensures r.Ok? ==> Valid(r.value.ctx) && r.value.ret == 1
    ensures r.Ok? ==> r.value.ctx == d.(param := r.value.ctx.param, neverSynced := r.value.ctx.neverSynced,
                                        es := r.value.ctx.es)
    ensures r.Ok? ==> OnPid(r.value.out, pid) && (r.value.out != [] ==> InWindow(r.value.ctx.param, pid))
    ensures r.Ok? && !d.bOutput ==> r.value.out == []
    ensures r.Ok? ==> Data(r.value.out) + BufferOf(r.value.ctx.es, pid) == BufferOf(d.es, pid) + r.value.accepted
    ensures r.Ok? ==> |d.es| <= |r.value.ctx.es| <= |d.es| + 1
    ensures r.Ok? ==> forall i | 0 <= i < |d.es| && d.es[i].pid != pid :: r.value.ctx.es[i] == d.es[i]
    ensures pid == NULL_PID && !Admits(d.param, pid) ==> r == Ok(Outcome(d, 1, [], []))
    ensures Adaptation(pkt) == 2 && !Admits(d.param, pid) ==> r == Ok(Outcome(d, 1, [], []))
    ensures Gate(d, pkt, pid).Some? ==> r == Ok(Gate(d, pkt, pid).value)
    ensures (Adaptation(pkt) == 2 || pid == NULL_PID) && Gate(d, pkt, pid).None? ==> r == Ok(Outcome(d, 1, [], []))
    ensures Adaptation(pkt) != 2 && pid != NULL_PID && Gate(d, pkt, pid).None? ==> Routed(d, pkt, pid, r)
    ensures r.Ok? && d.param.pidMax != -1 ==> r.value.ctx.param == d.param
  {
    match Gate(d, pkt, pid)
    case Some(o) =>
      BufferKept(d.es, o.ctx.es, pid);
      Ok(o)
    case None =>
      if Adaptation(pkt) == 2 || pid == NULL_PID then Ok(Outcome(d, 1, [], []))
      else
        var off := PayloadOffset(pkt);
        match AutoSelect(d, pkt, pid, off)
        case Err(e) => Err(e)
        case Ok(d1) =>
          if InWindow(d1.param, pid) then
            var r := Process(d1, pkt, pid, off);
            r
          else Ok(Outcome(d1, 1, [], []))
  }

  /** Changing only the sync flags leaves every stream's buffer where it was. */
  lemma BufferKept(es: seq<EsRecord>, es': seq<EsRecord>, pid: int)
    requires |es'| == |es|
    requires forall i | 0 <= i < |es| :: es'[i] == es[i].(synced := es'[i].synced)
    ensures BufferOf(es', pid) == BufferOf(es, pid)
  {
    IndexOfSamePids(es, es', pid, 0);
  }

  lemma {:induction false} IndexOfSamePids(es: seq<EsRecord>, es': seq<EsRecord>, pid: int, i: nat)
    requires |es'| == |es| && i <= |es|
    requires forall j | 0 <= j < |es| :: es'[j].pid == es[j].pid
    ensures IndexOf(es', pid, i) == IndexOf(es, pid, i)
    decreases |es| - i
  {
    if i < |es| {
      IndexOfSamePids(es, es', pid, i + 1);
    }
  }

  /**
   * The sink's byte counter after it wrote `out`: each write adds its
   * length to the `uint32_t` total.
   */
  function Tally(total: int, out: seq<Chunk>): (t: int)
    requires 0 <= total < TWO_32
    ensures 0 <= t < TWO_32
    ensures out == [] ==> t == total
    decreases |out|
  {
    if out == [] then total else Tally(U32(total + |out[0].data|), out[1..])
  }

  /** Counting write by write is counting all the bytes at once, modulo 2^32. */
  lemma {:induction false} TallyIsSum(total: int, out: seq<Chunk>)
    requires 0 <= total < TWO_32
    ensures Tally(total, out) == U32(total + |Data(out)|)
    decreases |out|
  {
    if out != [] {
      TallyIsSum(U32(total + |out[0].data|), out[1..]);
      WrapTwice(total + |out[0].data|, |Data(out[1..])|);
      assert |Data(out)| == |out[0].data| + |Data(out[1..])|;
    }
  }

  /**
   * `r` is what a packet comes to after its PSI: a PAT or PMT that cannot
   * be read fails it; otherwise the PSI state is the one `Tables` leaves,
   * a packet the gate drops ends with the gate's outcome, and a packet the
   * gate lets through, with a payload on a PID other than the null PID, is
   * routed.
   */
  predicate AfterTables(d: Demux, pkt: seq<byte>, r: Result<Outcome>)
    requires Valid(d) && |pkt| == TS_PACKET_SIZE
  {
    var pid := Pid(pkt) as int;
    var t := Tables(d, pkt, pid);
    && (t.Err? ==> r == Err(t.fault))
    && (r.Ok? ==> && t.Ok? && r.value.ctx.pmtPid == t.value.pmtPid && r.value.ctx.pmt == t.value.pmt
                  && r.value.ctx.bOutput == t.value.bOutput)
    && (t.Ok? && Gate(t.value, pkt, pid).Some? ==> r == Ok(Gate(t.value, pkt, pid).value))
    && (t.Ok? && Adaptation(pkt) != 2 && pid != NULL_PID && Gate(t.value, pkt, pid).None? ==>
          Routed(t.value, pkt, pid, r))
  }

  /**
   * The body of `ts2es_demux_ts_packet` after the sync byte check: the
   * PSI, then the packet's route.  Only the packet's own stream changes,
   * only a PID in the window reaches the sink, nothing reaches it before
   * the first PMT, and the stream's bytes are conserved: what the sink
   * wrote plus what stays buffered is what was buffered plus what the
   * packet contributed.
   */
  function Demultiplex(d: Demux, pkt: seq<byte>): (r: Result<Outcome>)
    requires Valid(d) && |pkt| == TS_PACKET_SIZE
    ensures r.Ok? ==> Valid(r.value.ctx) && r.value.ret == 1
    ensures r.Ok? ==> r.value.ctx.totalPackets == d.totalPackets && r.value.ctx.totalBytes == d.totalBytes
    ensures r.Ok? ==> OnPid(r.value.out, Pid(pkt) as int)
    ensures r.Ok? && r.value.out != [] ==> InWindow(r.value.ctx.param, Pid(pkt) as int) && r.value.ctx.bOutput
    ensures r.Ok? ==> Data(r.value.out) + BufferOf(r.value.ctx.es, Pid(pkt) as int)
                      == BufferOf(d.es, Pid(pkt) as int) + r.value.accepted
    ensures r.Ok? ==> |d.es| <= |r.value.ctx.es| <= |d.es| + 1
    ensures r.Ok? ==> forall i | 0 <= i < |d.es| && d.es[i].pid != Pid(pkt) as int :: r.value.ctx.es[i] == d.es[i]
    ensures AfterTables(d, pkt, r)
    ensures r.Ok? && d.bOutput ==> r.value.ctx.bOutput
  {
    var pid := Pid(pkt) as int;
    match Tables(d, pkt, pid)
    case Err(e) => Err(e)
    case Ok(d1) => Route(d1, pkt, pid)
  }

  /**
   * What a packet does to the PSI state, stated on the packet's bytes: a
   * PAT names the PMT PID and empties the table; a PMT fills the table with
   * its entries and switches output on, and for a stream type to catch the
   * window becomes the one the new table yields for it.
   */
  lemma DemultiplexPsi(d: Demux, pkt: seq<byte>)
    requires Valid(d) && |pkt| == TS_PACKET_SIZE && Demultiplex(d, pkt).Ok?
    ensures var c := Demultiplex(d, pkt).value.ctx;
            Pid(pkt) as int == PAT_PID ==>
              c.pmtPid == LastProgramPid(PatEntries(pkt[5..]), -1) && c.pmt == EmptyPmtTable()
    ensures var c := Demultiplex(d, pkt).value.ctx;
            Pid(pkt) as int != PAT_PID && Pid(pkt) as int == d.pmtPid ==>
              && c.bOutput && DecodePmt(pkt[5..]).Ok?
              && forall i | 0 <= i < |DecodePmt(pkt[5..]).value| :: c.pmt[i] == DecodePmt(pkt[5..]).value[i]
    ensures var c := Demultiplex(d, pkt).value.ctx;
            Pid(pkt) as int != PAT_PID && Pid(pkt) as int == d.pmtPid && d.param.streamTypeToCatch >= 0 ==>
              c.param == d.param.(pidMin := PidWindow(c.pmt, d.param.streamTypeToCatch).0,
                                  pidMax := PidWindow(c.pmt, d.param.streamTypeToCatch).1)
  {
    var pid := Pid(pkt) as int;
    var t := Tables(d, pkt, pid);
    assert t.Ok?;
    assert Demultiplex(d, pkt) == Route(t.value, pkt, pid);
  }

  /**
   * `r` is the packet's demultiplexing once the packet is counted: it
   * fails exactly when that fails, and otherwise has the same chunks, kept
   * bytes and context, but for the sink's byte counter.
   */
  predicate Counted(d: Demux, pkt: seq<byte>, r: Result<Outcome>)
    requires Valid(d) && |pkt| == TS_PACKET_SIZE
  {
    var m := Demultiplex(d.(totalPackets := U32(d.totalPackets + 1)), pkt);
    && (r.Ok? <==> m.Ok?)
    && (r.Ok? ==> && r.value.out == m.value.out && r.value.accepted == m.value.accepted
                  && r.value.ctx == m.value.ctx.(totalBytes := r.value.ctx.totalBytes))
  }

  /**
   * `ts2es_demux_ts_packet` with the sink's byte counter.  Every call
   * counts the packet; a wrong sync byte returns 0 and changes nothing
   * else; any other packet returns 1, and the byte counter grows by what
   * the sink wrote.
   */
  function Step(d: Demux, pkt: seq<byte>): (r: Result<Outcome>)
    requires Valid(d) && |pkt| == TS_PACKET_SIZE
    ensures pkt[0] != TS_SYNC_BYTE ==> r == Ok(Outcome(d.(totalPackets := U32(d.totalPackets + 1)), 0, [], []))
    ensures r.Ok? ==> Valid(r.value.ctx) && (r.value.ret == 0 <==> pkt[0] != TS_SYNC_BYTE)
    ensures r.Ok? ==> r.value.ctx.totalPackets == U32(d.totalPackets + 1)
    ensures r.Ok? ==> r.value.ctx.totalBytes == Tally(d.totalBytes, r.value.out)
    ensures r.Ok? ==> OnPid(r.value.out, Pid(pkt) as int)
    ensures r.Ok? ==> (d.bOutput ==> r.value.ctx.bOutput) && (r.value.out != [] ==> r.value.ctx.bOutput)
  {
    var d1 := d.(totalPackets := U32(d.totalPackets + 1));
    if pkt[0] != TS_SYNC_BYTE then Ok(Outcome(d1, 0, [], []))
    else
      match Demultiplex(d1, pkt)
      case Err(e) => Err(e)
      case Ok(o) => Ok(o.(ctx := o.ctx.(totalBytes := Tally(d.totalBytes, o.out))))
  }

  /**
   * A packet with a good sync byte is counted and then demultiplexed: the
   * step fails exactly when demultiplexing fails, and otherwise has its
   * chunks, kept bytes and context, but for the sink's byte counter.
   */
  lemma StepDemultiplexes(d: Demux, pkt: seq<byte>)
    requires Valid(d) && |pkt| == TS_PACKET_SIZE && pkt[0] == TS_SYNC_BYTE
    ensures Counted(d, pkt, Step(d, pkt))
  {
  }

  /**
   * A null packet changes nothing but the packet counter: it is no PSI
   * (unless a PAT names the null PID as the PMT's), it never gets a record,
   * and a transport error on it has no stream to take out of sync.
   */
  lemma NullPacketOnlyCounts(d: Demux, pkt: seq<byte>)
    requires Valid(d) && |pkt| == TS_PACKET_SIZE
    requires pkt[0] == TS_SYNC_BYTE && Pid(pkt) as int == NULL_PID && d.pmtPid != NULL_PID
    ensures Step(d, pkt) == Ok(Outcome(d.(totalPackets := U32(d.totalPackets + 1)), 1, [], []))
  {
    var d1 := d.(totalPackets := U32(d.totalPackets + 1));
    assert Tables(d1, pkt, NULL_PID) == Ok(d1);
    var g := Gate(d1, pkt, NULL_PID);
    if g.Some? {
      assert g.value.ctx.es == d1.es;
    }
  }

  // ---------------------------------------------------------------------------
  // The `test.c` driver

  /**
   * Where a run of packets ends: the context, everything the sink wrote,
   * the fault that stopped it if one did, and how many packets were
   * processed to the end.
   */
  datatype Session = Session(ctx: Demux, out: seq<Chunk>, fault: Option<Fault>, consumed: nat)

  /**
   * The loop of the `test.c` driver: packets are fed in turn until one
   * has a wrong sync byte (it is counted, then the loop ends) or the input
   * runs out.  A packet that faults stops the run before it is counted.
   */
  function Run(d: Demux, pkts: seq<seq<byte>>): (s: Session)
    requires Valid(d) && forall i | 0 <= i < |pkts| :: |pkts[i]| == TS_PACKET_SIZE
    ensures Valid(s.ctx) && s.consumed <= |pkts|
    ensures s.fault.None? && s.consumed < |pkts| ==> 0 < s.consumed && pkts[s.consumed - 1][0] != TS_SYNC_BYTE
    decreases |pkts|
  {
    if pkts == [] then Session(d, [], None, 0)
    else
      match Step(d, pkts[0])
      case Err(e) => Session(d, [], Some(e), 0)
      case Ok(o) =>
        if o.ret == 0 then Session(o.ctx, o.out, None, 1)
        else
          var s := Run(o.ctx, pkts[1..]);
          Session(s.ctx, o.out + s.out, s.fault, s.consumed + 1)
  }

  /**
   * A run stops at the first packet with a wrong sync byte, after counting
   * it, or before the first packet that faults, which has a good sync byte:
   * every packet before the last one consumed had a good sync byte.
   */
  lemma {:induction false} RunStops(d: Demux, pkts: seq<seq<byte>>)
    requires Valid(d) && forall i | 0 <= i < |pkts| :: |pkts[i]| == TS_PACKET_SIZE
    ensures var s := Run(d, pkts);
            forall i | 0 <= i && i + 1 < s.consumed :: pkts[i][0] == TS_SYNC_BYTE
    ensures var s := Run(d, pkts);
            s.fault.Some? ==> && s.consumed < |pkts| && pkts[s.consumed][0] == TS_SYNC_BYTE
                              && (0 < s.consumed ==> pkts[s.consumed - 1][0] == TS_SYNC_BYTE)
    decreases |pkts|
  {
    if pkts != [] && Step(d, pkts[0]).Ok? && Step(d, pkts[0]).value.ret != 0 {
      var o := Step(d, pkts[0]).value;
      var s := Run(o.ctx, pkts[1..]);
      RunStops(o.ctx, pkts[1..]);
      assert Run(d, pkts) == Session(s.ctx, o.out + s.out, s.fault, s.consumed + 1);
      assert pkts[0][0] == TS_SYNC_BYTE;
      forall i | 0 <= i && i + 1 < s.consumed + 1
        ensures pkts[i][0] == TS_SYNC_BYTE
      {
        if i > 0 { assert pkts[i] == pkts[1..][i - 1]; }
      }
    }
  }

  /** The counters of `s` are those of `d` plus the packets consumed and the bytes written, modulo 2^32. */
  predicate AddsUp(d: Demux, s: Session)
  {
    && s.ctx.totalPackets == U32(d.totalPackets + s.consumed)
    && s.ctx.totalBytes == U32(d.totalBytes + |Data(s.out)|)
  }

  /**
   * The counters after one packet and then the rest of a run are those of
   * the packets and bytes of both together.
   */
  lemma SessionTotals(d: Demux, o: Outcome, s: Session)
    requires 0 <= d.totalBytes < TWO_32
    requires o.ctx.totalPackets == U32(d.totalPackets + 1) && o.ctx.totalBytes == Tally(d.totalBytes, o.out)
    requires AddsUp(o.ctx, s)
    ensures AddsUp(d, Session(s.ctx, o.out + s.out, s.fault, s.consumed + 1))
  {
    TallyIsSum(d.totalBytes, o.out);
    DataAppend(o.out, s.out);
    WrapTwice(d.totalBytes + |Data(o.out)|, |Data(s.out)|);
    WrapTwice(d.totalPackets + 1, s.consumed);
  }

  /**
   * Over a whole run the counters add up: one packet per packet consumed
   * and the bytes of every chunk written, both modulo 2^32.
   */
  lemma {:induction false} RunTotals(d: Demux, pkts: seq<seq<byte>>)
    requires Valid(d) && forall i | 0 <= i < |pkts| :: |pkts[i]| == TS_PACKET_SIZE
    ensures AddsUp(d, Run(d, pkts))
    decreases |pkts|
  {
    if pkts != [] && Step(d, pkts[0]).Ok? {
      var o := Step(d, pkts[0]).value;
      if o.ret == 0 {
        TallyIsSum(d.totalBytes, o.out);
      } else {
        RunTotals(o.ctx, pkts[1..]);
        SessionTotals(d, o, Run(o.ctx, pkts[1..]));
      }
    }
  }

  /** Output, once on, stays on, and nothing is written while it is off. */
  predicate KeepsOutput(d: Demux, s: Session)
  {
    && (d.bOutput ==> s.ctx.bOutput)
    && (s.out != [] ==> s.ctx.bOutput)
  }

  /** Every chunk of `s` is on the PID of one of the packets it consumed. */
  predicate WritesOwnPids(pkts: seq<seq<byte>>, s: Session)
    requires s.consumed <= |pkts| && forall i | 0 <= i < |pkts| :: |pkts[i]| == TS_PACKET_SIZE
  {
    forall j | 0 <= j < |s.out| :: exists i | 0 <= i < s.consumed :: s.out[j].pid == Pid(pkts[i]) as int
  }

  /** One packet's chunks, on its own PID, followed by the rest of a run that writes only its own PIDs. */
  lemma SessionPids(pkts: seq<seq<byte>>, o: Outcome, s: Session)
    requires 0 < |pkts| && s.consumed < |pkts| && forall i | 0 <= i < |pkts| :: |pkts[i]| == TS_PACKET_SIZE
    requires OnPid(o.out, Pid(pkts[0]) as int)
    requires WritesOwnPids(pkts[1..], s)
    ensures WritesOwnPids(pkts, Session(s.ctx, o.out + s.out, s.fault, s.consumed + 1))
  {
    var out := o.out + s.out;
    forall j | 0 <= j < |out|
      ensures exists i | 0 <= i < s.consumed + 1 :: out[j].pid == Pid(pkts[i]) as int
    {
      if j < |o.out| {
        assert out[j].pid == Pid(pkts[0]) as int;
      } else {
        var i :| 0 <= i < s.consumed && s.out[j - |o.out|].pid == Pid(pkts[1..][i]) as int;
        assert out[j].pid == Pid(pkts[i + 1]) as int;
      }
    }
  }

  /** Over a whole run, output once on stays on and nothing is written while it is off. */
  lemma {:induction false} RunKeepsOutput(d: Demux, pkts: seq<seq<byte>>)
    requires Valid(d) && forall i | 0 <= i < |pkts| :: |pkts[i]| == TS_PACKET_SIZE
    ensures KeepsOutput(d, Run(d, pkts))
    decreases |pkts|
  {
    if pkts != [] && Step(d, pkts[0]).Ok? && Step(d, pkts[0]).value.ret != 0 {
      var o := Step(d, pkts[0]).value;
      RunKeepsOutput(o.ctx, pkts[1..]);
      assert KeepsOutput(o.ctx, Run(o.ctx, pkts[1..]));
    }
  }

  /** Over a whole run, every chunk is on the PID of a packet the run consumed. */
  lemma {:induction false} RunWritesOwnPids(d: Demux, pkts: seq<seq<byte>>)
    requires Valid(d) && forall i | 0 <= i < |pkts| :: |pkts[i]| == TS_PACKET_SIZE
    ensures WritesOwnPids(pkts, Run(d, pkts))
    decreases |pkts|
  {
    if pkts != [] && Step(d, pkts[0]).Ok? && Step(d, pkts[0]).value.ret != 0 {
      var o := Step(d, pkts[0]).value;
      RunWritesOwnPids(o.ctx, pkts[1..]);
      SessionPids(pkts, o, Run(o.ctx, pkts[1..]));
    }
  }
}

=== FILE: es_stream.dfy ===
/**
 * The per-PID elementary-stream records of the demultiplexer: the record
 * itself, the registry lookup that creates records on first sight of a PID,
 * the continuity-counter check, and the output sink that hands a record's
 * buffered bytes on.
 */
module EsStream {
  import opened Util
  import opened TsFormat

  /**
   * One elementary stream.  `buffer` holds the bytes collected since the
   * last flush, so its length is the C record's `cur_len`; `synced` is true
   * while the stream is aligned to MPEG audio frames.
   */
  datatype EsRecord = EsRecord(
    pid: int,
    pts: int,
    dts: int,
    synced: bool,
    continuityCount: int,
    pesRemaining: int,
    pesStreamId: int,
    buffer: seq<byte>)

  /** A block of elementary-stream bytes handed to the output sink. */
  datatype Chunk = Chunk(pid: int, pts: int, data: seq<byte>)

  predicate ValidRecord(r: EsRecord)
  {
    && 0 <= r.pid < 0x2000
    && -1 <= r.continuityCount < 16
    && -TWO_31 <= r.pesRemaining < TWO_31
    && -1 <= r.pesStreamId < 0x100
    && |r.buffer| <= ES_MAX_SIZE
  }

  /**
   * The record `ts2es_find_es` hands out for a new PID: the fields it sets
   * (PID, empty buffer, synced, no continuity count yet) over the state
   * `ts2es_create` left the slot in (no stream id, nothing remaining, zero
   * timestamps).
   */
  function NewRecord(pid: int): (r: EsRecord)
    requires 0 <= pid < 0x2000
    ensures ValidRecord(r) && r.pid == pid && r.buffer == []
  {
    EsRecord(pid, 0, 0, true, -1, 0, -1, [])
  }

  // ---------------------------------------------------------------------------
  // Continuity counter

  /**
   * `ts_continuity_check`: a counter other than the expected one drops
   * sync and resynchronises the expectation; either way the next expected
   * counter is one more, modulo 16.
   */
  function ContinuityCheck(r: EsRecord, cc: int): (r': EsRecord)
    requires 0 <= cc < 16
    ensures r'.continuityCount == (cc + 1) % 16
    ensures r'.synced <==> r.synced && r.continuityCount == cc
    ensures r' == r.(synced := r'.synced, continuityCount := r'.continuityCount)
  {
    var r1 := if r.continuityCount != cc then r.(synced := false, continuityCount := cc) else r;
    var next := r1.continuityCount + 1;
    r1.(continuityCount := if next == 16 then 0 else next)
  }

  /** The counters of successive packets checked in turn. */
  function CheckAll(r: EsRecord, ccs: seq<int>): (r': EsRecord)
    requires forall i | 0 <= i < |ccs| :: 0 <= ccs[i] < 16
    decreases |ccs|
  {
    if ccs == [] then r else CheckAll(ContinuityCheck(r, ccs[0]), ccs[1..])
  }

  /** Counters that go up by one per packet, modulo 16, from `start`. */
  predicate Consecutive(start: int, ccs: seq<int>)
  {
    forall i | 0 <= i < |ccs| :: ccs[i] == (start + i) % 16
  }

  /** Counters that follow on keep the sync as it was and advance the expectation. */
  lemma {:induction false} ConsecutiveKeepsSync(r: EsRecord, ccs: seq<int>)
    requires 0 <= r.continuityCount < 16
    requires forall i | 0 <= i < |ccs| :: 0 <= ccs[i] < 16
    requires Consecutive(r.continuityCount, ccs)
    ensures CheckAll(r, ccs).synced == r.synced
    ensures CheckAll(r, ccs).continuityCount == (r.continuityCount + |ccs|) % 16
    decreases |ccs|
  {
    if ccs != [] {
      var r1 := ContinuityCheck(r, ccs[0]);
      assert ccs[0] == r.continuityCount % 16 == r.continuityCount;
      forall i | 0 <= i < |ccs| - 1
        ensures ccs[1..][i] == (r1.continuityCount + i) % 16
      {
        assert ccs[i + 1] == (r.continuityCount + (i + 1)) % 16;
      }
      ConsecutiveKeepsSync(r1, ccs[1..]);
    }
  }

  /** Once sync is lost, no counter brings it back. */
  lemma {:induction false} UnsyncedStaysUnsynced(r: EsRecord, ccs: seq<int>)
    requires forall i | 0 <= i < |ccs| :: 0 <= ccs[i] < 16
    requires !r.synced
    ensures !CheckAll(r, ccs).synced
    decreases |ccs|
  {
    if ccs != [] {
      UnsyncedStaysUnsynced(ContinuityCheck(r, ccs[0]), ccs[1..]);
    }
  }

  /** A gap or a repeat anywhere in the run drops the sync. */
  lemma {:induction false} BreakLosesSync(r: EsRecord, ccs: seq<int>)
    requires 0 <= r.continuityCount < 16
    requires forall i | 0 <= i < |ccs| :: 0 <= ccs[i] < 16
    requires !Consecutive(r.continuityCount, ccs)
    ensures !CheckAll(r, ccs).synced
    decreases |ccs|
  {
    var r1 := ContinuityCheck(r, ccs[0]);
    if ccs[0] != r.continuityCount {
      UnsyncedStaysUnsynced(r1, ccs[1..]);
    } else {
      var j :| 0 <= j < |ccs| && ccs[j] != (r.continuityCount + j) % 16;
      assert j > 0;
      assert ccs[1..][j - 1] != (r1.continuityCount + (j - 1)) % 16;
      BreakLosesSync(r1, ccs[1..]);
    }
  }

  /**
   * A stream keeps its sync through a run of packets exactly when their
   * counters follow on from the expected one without a gap or a repeat.
   */
  lemma CheckAllKeepsSyncIff(r: EsRecord, ccs: seq<int>)
    requires 0 <= r.continuityCount < 16
    requires forall i | 0 <= i < |ccs| :: 0 <= ccs[i] < 16
    ensures CheckAll(r, ccs).synced <==> r.synced && Consecutive(r.continuityCount, ccs)
  {
    if Consecutive(r.continuityCount, ccs) {
      ConsecutiveKeepsSync(r, ccs);
    } else {
      BreakLosesSync(r, ccs);
    }
  }

  /**
   * A record fresh from the registry expects counter -1, which no packet
   * carries, so its first packet always drops the initial sync: the audio
   * sync scan runs at the start of every stream.
   */
  lemma FreshRecordLosesSync(pid: int, cc: int)
    requires 0 <= pid < 0x2000 && 0 <= cc < 16
    ensures !ContinuityCheck(NewRecord(pid), cc).synced
    ensures ContinuityCheck(NewRecord(pid), cc).continuityCount == (cc + 1) % 16
  {
  }

  // ---------------------------------------------------------------------------
  // Registry

  /** No two records in use share a PID. */
  predicate UniquePids(es: seq<EsRecord>)
  {
    forall i, j | 0 <= i < j < |es| :: es[i].pid != es[j].pid
  }

  predicate ValidRegistry(es: seq<EsRecord>)
  {
    && |es| <= MAX_NUM_ES
    && UniquePids(es)
    && forall i | 0 <= i < |es| :: ValidRecord(es[i])
  }

  /** The index of the first record for `pid`, scanning from `i`. */
  function IndexOf(es: seq<EsRecord>, pid: int, i: nat): (k: Option<nat>)
    requires i <= |es|
    ensures k.Some? ==> i <= k.value < |es| && es[k.value].pid == pid
    ensures k.Some? ==> forall j | i <= j < k.value :: es[j].pid != pid
    ensures k.None? ==> forall j | i <= j < |es| :: es[j].pid != pid
    decreases |es| - i
  {
    if i == |es| then None
    else if es[i].pid == pid then Some(i)
    else IndexOf(es, pid, i + 1)
  }

  /**
   * `ts2es_find_es`: the index of the record for `pid`, appending a new
   * record when there is none.  A new PID while all MAX_NUM_ES records are
   * in use is the write past the end of the C array.
   */
  function FindEs(es: seq<EsRecord>, pid: int): (r: Result<(seq<EsRecord>, nat)>)
    requires 0 <= pid < 0x2000
    ensures r.Ok? ==> r.value.1 < |r.value.0| && r.value.0[r.value.1].pid == pid
    ensures (exists i | 0 <= i < |es| :: es[i].pid == pid) ==>
              r.Ok? && r.value.0 == es
    ensures (forall i | 0 <= i < |es| :: es[i].pid != pid) ==>
              if |es| < MAX_NUM_ES then r == Ok((es + [NewRecord(pid)], |es|))
              else r == Err(EsTableOverflow)
  {
    match IndexOf(es, pid, 0)
    case Some(k) => Ok((es, k))
    case None =>
      if |es| < MAX_NUM_ES then Ok((es + [NewRecord(pid)], |es|)) else Err(EsTableOverflow)
  }

  /** Looking a PID up keeps the registry valid: at most one record per PID, never more than MAX_NUM_ES. */
  lemma FindEsKeepsRegistry(es: seq<EsRecord>, pid: int)
    requires ValidRegistry(es) && 0 <= pid < 0x2000
    ensures FindEs(es, pid).Ok? ==> ValidRegistry(FindEs(es, pid).value.0)
    ensures FindEs(es, pid).Ok? ==> |FindEs(es, pid).value.0| <= |es| + 1
  {
    if IndexOf(es, pid, 0).None? && |es| < MAX_NUM_ES {
      var es' := es + [NewRecord(pid)];
      forall i, j | 0 <= i < j < |es'|
        ensures es'[i].pid != es'[j].pid
      {
        if j == |es| {
          assert es'[i] == es[i];
        }
      }
    }
  }

  /** Replacing a record by one for the same PID keeps the registry valid. */
  lemma UpdateKeepsRegistry(es: seq<EsRecord>, k: nat, r: EsRecord)
    requires ValidRegistry(es) && k < |es| && ValidRecord(r) && r.pid == es[k].pid
    ensures ValidRegistry(es[k := r])
  {
    var es' := es[k := r];
    forall i, j | 0 <= i < j < |es'|
      ensures es'[i].pid != es'[j].pid
    {
      assert es'[i].pid == es[i].pid && es'[j].pid == es[j].pid;
    }
  }

  // ---------------------------------------------------------------------------
  // Output sink

  /** Every chunk of `out` belongs to the stream on `pid`. */
  predicate OnPid(out: seq<Chunk>, pid: int)
  {
    forall i | 0 <= i < |out| :: out[i].pid == pid
  }

  /** All the bytes of a sequence of chunks, in order. */
  function Data(out: seq<Chunk>): (d: seq<byte>)
    ensures out == [] ==> d == []
  {
    if out == [] then [] else out[0].data + Data(out[1..])
  }

  lemma {:induction false} DataAppend(a: seq<Chunk>, b: seq<Chunk>)
    ensures Data(a + b) == Data(a) + Data(b)
    decreases |a|
  {
    if a != [] {
      DataAppend(a[1..], b);
      assert (a + b)[0] == a[0];
      assert (a + b)[1..] == a[1..] + b;
      assert Data(a + b) == a[0].data + Data(a[1..] + b);
      assert Data(a) == a[0].data + Data(a[1..]);
    } else {
      assert a + b == b;
    }
  }

  /** What the sink leaves behind: the record and the chunks it wrote. */
  datatype Flushed = Flushed(rec: EsRecord, out: seq<Chunk>)

  /**
   * The output callback of the `test.c` driver: once output is enabled
   * (a PMT has been seen), a non-empty buffer is written out and emptied;
   * otherwise the bytes stay buffered.  The callback's byte count is kept
   * by the caller, from the chunks written (see `Demux.Step`).  A failed
   * write ends the C program and is not modelled.
   */
  function Flush(r: EsRecord, bOutput: bool): (f: Flushed)
    ensures Data(f.out) + f.rec.buffer == r.buffer
    ensures |f.out| <= 1 && (f.out != [] ==> f.out[0] == Chunk(r.pid, r.pts, r.buffer))
    ensures OnPid(f.out, r.pid)
    ensures f.out != [] <==> bOutput && r.buffer != []
    ensures f.rec == r.(buffer := f.rec.buffer)
    ensures ValidRecord(r) ==> ValidRecord(f.rec)
  {
    if bOutput && |r.buffer| > 0 then
      var out := [Chunk(r.pid, r.pts, r.buffer)];
      assert Data(out) == r.buffer + Data([]);
      Flushed(r.(buffer := []), out)
    else Flushed(r, [])
  }
}

=== FILE: mpa_header.dfy ===
/**
 * MPEG audio frame header validator: the 32-bit header of ISO/IEC 11172-3
 * section 2.4.1.3, with the lower sample rates of ISO/IEC 13818-3 and the
 * non-standard "MPEG-2.5" extension, the bitrate and sample-rate tables, and
 * the integer frame-size formula.  The demultiplexer uses it to find a frame
 * boundary when it (re)acquires sync.
 */
module MpaHeader {
  import opened Util

  const MODE_MONO: int := 3

  /** Bitrate in kbit/s, indexed [version - 1][layer - 1][bitrate_index]. */
  const BITRATE: seq<seq<seq<int>>> := [
    [ // MPEG-1
      [0, 32, 64, 96, 128, 160, 192, 224, 256, 288, 320, 352, 384, 416, 448, 0],  // layer I
      [0, 32, 48, 56, 64, 80, 96, 112, 128, 160, 192, 224, 256, 320, 384, 0],     // layer II
      [0, 32, 40, 48, 56, 64, 80, 96, 112, 128, 160, 192, 224, 256, 320, 0]       // layer III
    ],
    [ // MPEG-2
      [0, 32, 48, 56, 64, 80, 96, 112, 128, 144, 160, 176, 192, 224, 256, 0],
      [0, 8, 16, 24, 32, 40, 48, 56, 64, 80, 96, 112, 128, 144, 160, 0],
      [0, 8, 16, 24, 32, 40, 48, 56, 64, 80, 96, 112, 128, 144, 160, 0]
    ],
    [ // MPEG-2.5
      [0, 32, 48, 56, 64, 80, 96, 112, 128, 144, 160, 176, 192, 224, 256, 0],
      [0, 8, 16, 24, 32, 40, 48, 56, 64, 80, 96, 112, 128, 144, 160, 0],
      [0, 8, 16, 24, 32, 40, 48, 56, 64, 80, 96, 112, 128, 144, 160, 0]
    ]
  ]

  /** Sample rate in Hz, indexed [version - 1][samplerate_index]. */
  const SAMPLERATE: seq<seq<int>> := [
    [44100, 48000, 32000, 0],  // MPEG-1
    [22050, 24000, 16000, 0],  // MPEG-2
    [11025, 12000, 8000, 0]    // MPEG-2.5
  ]

  /**
   * The decoded header, one field per member of the C record.  `framesize`
   * is `None` when the C code leaves it unassigned (sample rate 0).
   */
  datatype MpaHeader = MpaHeader(
    syncword: bv32,
    layer: int,
    version: int,
    errorProtection: int,
    bitrateIndex: int,
    samplerateIndex: int,
    padding: int,
    extension: int,
    mode: int,
    modeExt: int,
    copyright: int,
    original: int,
    emphasis: int,
    channels: int,
    bitrate: int,
    samplerate: int,
    samples: int,
    framesize: Option<int>)

  /** The first four bytes as one big-endian word. */
  function HeaderWord(b: seq<byte>): (head: bv32)
    requires |b| >= 4
    ensures (head >> 24) as bv8 == b[0] && ((head >> 16) & 0xFF) as bv8 == b[1]
    ensures ((head >> 8) & 0xFF) as bv8 == b[2] && (head & 0xFF) as bv8 == b[3]
  {
    ((b[0] as bv32) << 24) | ((b[1] as bv32) << 16) | ((b[2] as bv32) << 8) | (b[3] as bv32)
  }

  /** Bytes per frame: samples x kbit/s x 1000 / Hz / 8, truncated, plus the padding byte. */
  function FrameSize(samples: int, bitrate: int, samplerate: int, padding: int): int
    requires samplerate > 0
  {
    (samples * bitrate * 1000 / samplerate) / 8 + padding
  }

  /** kbit/s for a version 1..3, a layer 1..3 and a bitrate index 0..15. */
  function Bitrate(version: int, layer: int, index: int): (r: int)
    requires 1 <= version <= 3 && 1 <= layer <= 3 && 0 <= index < 16
  {
    BITRATE[version - 1][layer - 1][index]
  }

  /** Hz for a version 1..3 and a sample-rate index 0..3. */
  function Samplerate(version: int, index: int): (r: int)
    requires 1 <= version <= 3 && 0 <= index < 4
  {
    SAMPLERATE[version - 1][index]
  }

  /** The field under mask `mask` found `shift` bits above the bottom of the word. */
  function Field(header: bv32, shift: bv32, mask: bv8): (r: int)
    requires shift < 32
    ensures 0 <= r <= mask as int
  {
    ((header >> shift) & (mask as bv32)) as bv8 as int
  }

  /** The 12-bit sync pattern at the top of the word. */
  function SyncwordOf(header: bv32): (s: bv32)
    ensures s <= 0xFFF
  {
    (header >> 20) & 0xFFF
  }

  /**
   * 1 = MPEG-1, 2 = MPEG-2, 3 = MPEG-2.5.  The low bit of the sync word
   * selects MPEG-2.5, whatever the version bit says, so the reserved
   * pattern (sync bit clear, version bit set) also reads as MPEG-2.5 and
   * the value 0 never occurs.
   */
  function VersionOf(header: bv32): (v: int)
    ensures v in {1, 2, 3}
    ensures v == 3 <==> (header >> 20) & 1 == 0
    ensures v == 1 <==> (header >> 20) & 1 == 1 && (header >> 19) & 1 == 1
  {
    var v := 2 - Field(header, 19, 1);
    if (header >> 20) & 1 == 0 then 3 else v
  }

  /** Layer 1..3 from the two layer bits '11', '10', '01'; the reserved '00' reads as 0. */
  function LayerOf(header: bv32): (l: int)
    ensures 0 <= l <= 3
    ensures l == 0 <==> (header >> 17) & 3 == 0
    ensures l != 0 ==> l == 4 - Field(header, 17, 3)
  {
    var l := 4 - Field(header, 17, 3);
    if l == 4 then 0 else l
  }

  /** The header fields as `parse_header` extracts them, before any table lookup. */
  datatype RawHeader = RawHeader(
    syncword: bv32, version: int, layer: int, errorProtection: int,
    bitrateIndex: int, samplerateIndex: int, padding: int, extension: int,
    mode: int, modeExt: int, copyright: int, original: int, emphasis: int)

  predicate WellFormedRaw(raw: RawHeader)
  {
    raw.version in {1, 2, 3} && 0 <= raw.layer <= 3
    && 0 <= raw.bitrateIndex < 16 && 0 <= raw.samplerateIndex < 4
  }

  /** The bit fields of the header word. */
  function RawOf(header: bv32): (raw: RawHeader)
    ensures WellFormedRaw(raw)
  {
    RawHeader(SyncwordOf(header), VersionOf(header), LayerOf(header), 1 - Field(header, 16, 1),
              Field(header, 12, 0xF), Field(header, 10, 3), Field(header, 9, 1), Field(header, 8, 1),
              Field(header, 6, 3), Field(header, 4, 3), Field(header, 3, 1), Field(header, 2, 1),
              Field(header, 0, 3))
  }

  /**
   * The derived part of `parse_header`: table lookups (only when layer and
   * version are nonzero), channel count, samples per frame and frame size
   * (only when the sample rate is nonzero), from the raw fields.
   */
  function Derive(raw: RawHeader): (mh: MpaHeader)
    requires WellFormedRaw(raw)
    ensures mh.syncword == raw.syncword && mh.version == raw.version && mh.layer == raw.layer
    ensures mh.bitrateIndex == raw.bitrateIndex && mh.samplerateIndex == raw.samplerateIndex
    ensures mh.padding == raw.padding && mh.mode == raw.mode
    ensures mh.channels == (if raw.mode == MODE_MONO then 1 else 2)
    ensures mh.samples == (if raw.version == 1 then 1152 else 576)
    ensures raw.layer == 0 ==> mh.bitrate == 0 && mh.samplerate == 0
    ensures raw.layer != 0 ==> mh.bitrate == Bitrate(raw.version, raw.layer, raw.bitrateIndex)
    ensures raw.layer != 0 ==> mh.samplerate == Samplerate(raw.version, raw.samplerateIndex)
    ensures mh.framesize.Some? <==> mh.samplerate != 0
    ensures mh.samplerate != 0 ==>
              mh.framesize == Some(FrameSize(mh.samples, mh.bitrate, mh.samplerate, raw.padding))
  {
    var bitrate := if raw.layer != 0 && raw.version != 0 then Bitrate(raw.version, raw.layer, raw.bitrateIndex) else 0;
    var samplerate := if raw.layer != 0 && raw.version != 0 then Samplerate(raw.version, raw.samplerateIndex) else 0;
    var samples := if raw.version == 1 then 1152 else 576;
    MpaHeader(
      syncword := raw.syncword,
      layer := raw.layer,
      version := raw.version,
      errorProtection := raw.errorProtection,
      bitrateIndex := raw.bitrateIndex,
      samplerateIndex := raw.samplerateIndex,
      padding := raw.padding,
      extension := raw.extension,
      mode := raw.mode,
      modeExt := raw.modeExt,
      copyright := raw.copyright,
      original := raw.original,
      emphasis := raw.emphasis,
      channels := if raw.mode == MODE_MONO then 1 else 2,
      bitrate := bitrate,
      samplerate := samplerate,
      samples := samples,
      framesize := if samplerate != 0 then Some(FrameSize(samples, bitrate, samplerate, raw.padding)) else None)
  }

  /** `parse_header`: splits a header word into its fields, then derives the rest. */
  function ParseHeader(header: bv32): (mh: MpaHeader)
  {
    Derive(RawOf(header))
  }

  /**
   * The checks of `mpa_header_parse` after the first byte, in the C order:
   * sync bits, layer, version, bitrate, sample rate.
   */
  function Validate(mh: MpaHeader): (r: Option<MpaHeader>)
    ensures r.Some? ==> r.value == mh
    ensures r.Some? <==>
              && mh.syncword & 0xFFE == 0xFFE && mh.layer != 0 && mh.version != 0
              && mh.bitrate != 0 && mh.samplerate != 0
  {
    if mh.syncword & 0xFFE != 0xFFE then None
    else if mh.layer == 0 then None
    else if mh.version == 0 then None
    else if mh.bitrate == 0 then None
    else if mh.samplerate == 0 then None
    else Some(mh)
  }

  /**
   * Validates the four bytes at the start of `b` as an MPEG audio frame
   * header; `None` stands for the C function's return value 0.
   */
  function Parse(b: seq<byte>): (r: Option<MpaHeader>)
    requires |b| >= 4
    ensures b[0] != 0xFF ==> r.None?
    ensures r.Some? ==> r.value == ParseHeader(HeaderWord(b))
  {
    if b[0] != 0xFF then None else Validate(ParseHeader(HeaderWord(b)))
  }

  /** A header the validator accepts has a layer, a bitrate, a sample rate and a frame size. */
  lemma ValidatedSane(head: bv32)
    requires Validate(ParseHeader(head)).Some?
    ensures var mh := ParseHeader(head);
      && 1 <= mh.layer <= 3 && 1 <= mh.version <= 3
      && 8 <= mh.bitrate <= 448 && 8000 <= mh.samplerate <= 48000
      && mh.framesize.Some?
  {
    var mh := ParseHeader(head);
    BitrateZeroIff(mh.version, mh.layer, mh.bitrateIndex);
    SamplerateZeroIff(mh.version, mh.samplerateIndex);
  }

  // ---------------------------------------------------------------------------
  // Properties of the tables and of the validator

  /** Only the first and the last column of the bitrate table are zero ("free" and "bad"). */
  lemma BitrateZeroIff(version: int, layer: int, index: int)
    requires 1 <= version <= 3 && 1 <= layer <= 3 && 0 <= index < 16
    ensures Bitrate(version, layer, index) == 0 <==> index == 0 || index == 15
    ensures index != 0 && index != 15 ==> 8 <= Bitrate(version, layer, index) <= 448
  {
  }

  /** Only the last column of the sample-rate table (index 3, reserved) is zero. */
  lemma SamplerateZeroIff(version: int, index: int)
    requires 1 <= version <= 3 && 0 <= index < 4
    ensures Samplerate(version, index) == 0 <==> index == 3
    ensures index != 3 ==> 8000 <= Samplerate(version, index) <= 48000
  {
  }

  /**
   * The product in the frame-size formula is computed in `uint32_t`; for
   * every table entry it stays below 2^32, so the unbounded arithmetic of
   * the model is the C arithmetic.
   */
  lemma FrameProductFits(version: int, layer: int, index: int)
    requires 1 <= version <= 3 && 1 <= layer <= 3 && 0 <= index < 16
    ensures 0 <= (if version == 1 then 1152 else 576) * Bitrate(version, layer, index) * 1000 < TWO_32
  {
    BitrateZeroIff(version, layer, index);
  }

  /**
   * An independent reading of the header bytes: 0xFF, three more sync bits,
   * a layer other than the reserved '00', a bitrate index other than 0 and
   * 15, and a sample-rate index other than 3.  The version bits never
   * disqualify a header.
   */
  predicate IsFrameHeader(b: seq<byte>)
    requires |b| >= 4
  {
    && b[0] == 0xFF
    && b[1] & 0xE0 == 0xE0
    && b[1] & 0x06 != 0
    && b[2] & 0xF0 != 0 && b[2] & 0xF0 != 0xF0
    && b[2] & 0x0C != 0x0C
  }

  /** Which header words `Validate` accepts, in terms of their raw fields. */
  lemma ValidateAcceptsIff(head: bv32)
    ensures Validate(ParseHeader(head)).Some? <==>
              && SyncwordOf(head) & 0xFFE == 0xFFE && LayerOf(head) != 0
              && Field(head, 12, 0xF) != 0 && Field(head, 12, 0xF) != 15
              && Field(head, 10, 3) != 3
  {
    var mh := ParseHeader(head);
    if mh.layer != 0 {
      BitrateZeroIff(mh.version, mh.layer, mh.bitrateIndex);
      SamplerateZeroIff(mh.version, mh.samplerateIndex);
    }
  }

  /** The validator accepts exactly the headers of the independent reading. */
  lemma ParseAcceptsIff(b: seq<byte>)
    requires |b| >= 4
    ensures Parse(b).Some? <==> IsFrameHeader(b)
  {
    HeaderBits(b);
    ValidateAcceptsIff(HeaderWord(b));
  }

  /** How the fields of the header word sit in the four bytes. */
  lemma HeaderBits(b: seq<byte>)
    requires |b| >= 4
    ensures var head := HeaderWord(b);
      && (b[0] == 0xFF ==> ((SyncwordOf(head) & 0xFFE == 0xFFE) <==> b[1] & 0xE0 == 0xE0))
      && (LayerOf(head) == 0 <==> b[1] & 0x06 == 0)
      && (Field(head, 12, 0xF) == 0 <==> b[2] & 0xF0 == 0)
      && (Field(head, 12, 0xF) == 15 <==> b[2] & 0xF0 == 0xF0)
      && (Field(head, 10, 3) == 3 <==> b[2] & 0x0C == 0x0C)
      && Field(head, 9, 1) == ((b[2] >> 1) & 1) as int
  {
  }

  /** MPEG-1 layer III, 128 kbit/s, 44100 Hz, no padding: 417-byte frames. */
  lemma Layer3At128k()
    ensures var r := Parse([0xFF, 0xFB, 0x90, 0x00]);
      && r.Some? && r.value.version == 1 && r.value.layer == 3
      && r.value.bitrate == 128 && r.value.samplerate == 44100 && r.value.framesize == Some(417)
  {
    assert HeaderWord([0xFF, 0xFB, 0x90, 0x00]) == 0xFFFB_9000;
    var raw := RawOf(0xFFFB_9000);
    assert raw.syncword == 0xFFF && raw.version == 1 && raw.layer == 3;
    assert raw.bitrateIndex == 9 && raw.samplerateIndex == 0 && raw.padding == 0;
  }

  /** With the padding bit set, the same stream has 418-byte frames. */
  lemma Layer3At128kPadded()
    ensures var r := Parse([0xFF, 0xFB, 0x92, 0x00]);
      r.Some? && r.value.framesize == Some(418)
  {
    assert HeaderWord([0xFF, 0xFB, 0x92, 0x00]) == 0xFFFB_9200;
    var raw := RawOf(0xFFFB_9200);
    assert raw.syncword == 0xFFF && raw.version == 1 && raw.layer == 3;
    assert raw.bitrateIndex == 9 && raw.samplerateIndex == 0 && raw.padding == 1;
  }

  /** A first byte of 0xFF with the three following sync bits clear is no header. */
  lemma BrokenSyncRejected()
    ensures Parse([0xFF, 0x1B, 0x90, 0x00]).None?
  {
    assert HeaderWord([0xFF, 0x1B, 0x90, 0x00]) == 0xFF1B_9000;
    assert SyncwordOf(0xFF1B_9000) == 0xFF1;
  }

  /** Setting the padding bit of a valid header keeps it valid and adds exactly one byte to the frame. */
  lemma PaddingAddsOne(b: seq<byte>)
    requires |b| >= 4 && b[2] & 0x02 == 0
    requires Parse(b).Some?
    ensures var r := Parse(b[2 := b[2] | 0x02]);
      && r.Some? && r.value.padding == 1
      && r.value.framesize.value == Parse(b).value.framesize.value + 1
  {
    var b' := b[2 := b[2] | 0x02];
    PaddingBytes(b);
    PaddingWord(HeaderWord(b));
    assert b'[0] == b[0];
  }

  /** On the header word: bit 9 turns a valid header into a valid one a byte longer. */
  lemma PaddingWord(head: bv32)
    requires (head >> 9) & 1 == 0
    requires Validate(ParseHeader(head)).Some?
    ensures var mh := ParseHeader(head);
      Validate(ParseHeader(head | 0x200)) == Some(mh.(padding := 1, framesize := Some(mh.framesize.value + 1)))
  {
    PaddingRaw(head);
    PaddingDerive(RawOf(head));
  }

  /** Setting the padding bit in byte 2 sets bit 9 of the header word, which was clear. */
  lemma PaddingBytes(b: seq<byte>)
    requires |b| >= 4 && b[2] & 0x02 == 0
    ensures HeaderWord(b[2 := b[2] | 0x02]) == HeaderWord(b) | 0x200
    ensures (HeaderWord(b) >> 9) & 1 == 0
  {
  }

  /** Bit 9 of the header word feeds the padding field and nothing else. */
  lemma PaddingRaw(head: bv32)
    requires (head >> 9) & 1 == 0
    ensures RawOf(head | 0x200) == RawOf(head).(padding := 1)
    ensures RawOf(head).padding == 0
  {
  }

  /** The padding field adds one byte to the frame size and changes nothing else. */
  lemma PaddingDerive(raw: RawHeader)
    requires WellFormedRaw(raw) && raw.padding == 0
    ensures var mh := Derive(raw);
      Derive(raw.(padding := 1)) ==
        mh.(padding := 1, framesize := if mh.samplerate != 0 then Some(mh.framesize.value + 1) else None)
  {
  }
}

=== FILE: pes.dfy ===
/**
 * PES reassembly for one elementary stream: validating a PES header,
 * tracking how much of the PES packet is still to come, finding the first
 * MPEG audio frame header when the stream is out of sync, and collecting
 * the elementary-stream bytes in the record's buffer.
 */
module PesAssembler {
  import opened Util
  import opened TsFormat
  import opened MpaHeader
  import opened EsStream

  /**
   * `validate_pes_header`: the start code 00 00 01, the '10' marker bits of
   * the optional header, and no PES scrambling.  The stream id is not
   * checked (the C code reports non-audio ids only in a comment).
   */
  function ValidatePesHeader(p: seq<byte>): (ok: bool)
    requires |p| >= 7
    ensures ok <==> p[0] == 0x00 && p[1] == 0x00 && p[2] == 0x01 && p[6] & 0xC0 == 0x80 && p[6] & 0x30 == 0
  {
    PesStartCodeOk(p) && PesSyncCode(p) == 2 && PesScrambled(p) == 0
  }

  /** A header written by the multiplexer is accepted. */
  lemma BuiltPesHeaderValid(streamId: bv8, packetLen: bv16, headLen: bv8, pts: bv64, dts: bv64)
    requires 10 <= headLen
    requires pts < 0x2_0000_0000 && dts < 0x2_0000_0000
    ensures ValidatePesHeader(BuildPesHeader(streamId, packetLen, headLen, pts, dts))
  {
    ParseBuildPesHeader(streamId, packetLen, headLen, pts, dts);
  }

  /** Four bytes at offset `j` of `data` form a valid MPEG audio frame header. */
  predicate HeaderAt(data: seq<byte>, j: int)
  {
    0 <= j && j + 4 <= |data| && Parse(data[j..]).Some?
  }

  /**
   * The sync scan: the first offset from `i` on at which four bytes remain
   * and they form a valid MPEG audio frame header, if any.
   */
  function SyncOffset(data: seq<byte>, i: nat): (k: Option<nat>)
    requires i <= |data|
    ensures k.Some? ==> i <= k.value && HeaderAt(data, k.value)
    ensures k.Some? ==> forall j | i <= j < k.value :: !HeaderAt(data, j)
    ensures k.None? ==> forall j | i <= j :: !HeaderAt(data, j)
    decreases |data| - i
  {
    if |data| - i < 4 then None
    else if Parse(data[i..]).Some? then Some(i)
    else SyncOffset(data, i + 1)
  }

  /** What one packet's payload does to a stream. */
  datatype Extracted = Extracted(
    rec: EsRecord,
    out: seq<Chunk>,
    neverSynced: bool,
    accepted: seq<byte>)

  /**
   * The test for a PES packet that ends with this packet: what is left of
   * it plus the payload length `pesLen`, added as `size_t`, is below 183.
   */
  predicate PesEnds(remaining: int, pesLen: int)
  {
    SizeT(remaining + pesLen) < TS_PACKET_SIZE - 5
  }

  /**
   * The flush rule at the end of `extract_pes_payload`: the buffer is
   * written out when output is on, the packet added bytes to it, and the
   * PES packet ends.
   */
  predicate FlushDue(e: Extracted, pesLen: int, bOutput: bool)
  {
    bOutput && e.accepted != [] && PesEnds(e.rec.pesRemaining, pesLen)
  }

  /**
   * The sync scan of `extract_pes_payload`: a synced stream keeps all of
   * `data`; an unsynced one skips bytes up to the first frame header and
   * gains sync there, or keeps nothing when there is none.
   */
  function Acquire(synced: bool, data: seq<byte>): (rest: seq<byte>)
    ensures |rest| <= |data| && rest == data[|data| - |rest|..]
    ensures synced ==> rest == data
    ensures !synced && rest != [] ==>
              HeaderAt(data, |data| - |rest|) && forall j | 0 <= j < |data| - |rest| :: !HeaderAt(data, j)
    ensures !synced && rest == [] ==> forall j :: !HeaderAt(data, j)
  {
    if synced then data
    else match SyncOffset(data, 0)
      case None => []
      case Some(k) => data[k..]
  }

  /**
   * Appending the accepted bytes to the buffer (the C code copies
   * without a bound check, so more than `ES_MAX_SIZE` bytes is a fault) and
   * flushing when the PES packet ends.  The flush writes the whole buffer
   * as one chunk, and only while output is on.
   */
  function Append(r: EsRecord, rest: seq<byte>, pesLen: int, bOutput: bool): (x: Result<Flushed>)
    requires |r.buffer| <= ES_MAX_SIZE
    ensures x.Ok? ==> Data(x.value.out) + x.value.rec.buffer == r.buffer + rest
    ensures x.Ok? ==> x.value.rec == r.(buffer := x.value.rec.buffer) && |x.value.rec.buffer| <= ES_MAX_SIZE
    ensures x.Ok? ==> |x.value.out| <= 1 && OnPid(x.value.out, r.pid)
    ensures x.Ok? && !bOutput ==> x.value.out == []
    ensures x.Ok? ==> (x.value.out != [] <==>
                         bOutput && r.buffer + rest != [] && PesEnds(r.pesRemaining, pesLen))
    ensures x.Ok? && x.value.out != [] ==>
              x.value.out == [Chunk(r.pid, r.pts, r.buffer + rest)] && x.value.rec.buffer == []
    ensures x.Err? <==> |r.buffer| + |rest| > ES_MAX_SIZE
    ensures x.Err? ==> x.fault == BufferOverflow
  {
    if |r.buffer| + |rest| > ES_MAX_SIZE then Err(BufferOverflow)
    else
      var r1 := r.(buffer := r.buffer + rest);
      if PesEnds(r1.pesRemaining, pesLen) then Ok(Flush(r1, bOutput))
      else Ok(Flushed(r1, []))
  }

  /**
   * What the sync scan leaves after it ran over `data` on a stream whose
   * flag was `synced`: the bytes it keeps, a stream that is synced exactly
   * when it was or something was kept, and a context that has never synced
   * only while nothing was found on an unsynced stream.
   */
  predicate Scanned(synced: bool, data: seq<byte>, neverSynced: bool, e: Extracted)
  {
    && e.accepted == Acquire(synced, data)
    && e.rec.synced == (synced || e.accepted != [])
    && e.neverSynced == (neverSynced && (synced || e.accepted == []))
  }

  /**
   * The part of `extract_pes_payload` that runs once the packet has ES
   * bytes `data`: count them off the PES packet, scan for a frame header
   * if the stream is out of sync, append what follows to the buffer, and
   * flush the buffer when the PES packet is (nearly) complete.  `pesLen`
   * is the whole payload length, which the flush test uses.
   */
  function Deliver(r: EsRecord, data: seq<byte>, pesLen: int, bOutput: bool,
                   neverSynced: bool): (x: Result<Extracted>)
    requires ValidRecord(r)
    ensures x.Ok? ==> Data(x.value.out) + x.value.rec.buffer == r.buffer + x.value.accepted
    ensures x.Ok? ==> x.value.accepted == Acquire(r.synced, data)
    ensures x.Ok? ==> x.value.rec.synced == (r.synced || x.value.accepted != [])
    ensures x.Ok? ==> x.value.neverSynced == (neverSynced && (r.synced || x.value.accepted == []))
    ensures x.Ok? ==> Scanned(r.synced, data, neverSynced, x.value)
    ensures x.Ok? ==> x.value.rec == r.(synced := x.value.rec.synced, pesRemaining := I32(r.pesRemaining - |data|),
                                        buffer := x.value.rec.buffer)
    ensures x.Ok? ==> ValidRecord(x.value.rec)
    ensures x.Ok? ==> |x.value.out| <= 1 && OnPid(x.value.out, r.pid)
    ensures x.Ok? && !bOutput ==> x.value.out == []
    ensures x.Ok? ==> (x.value.out != [] <==> FlushDue(x.value, pesLen, bOutput))
    ensures x.Ok? && x.value.out != [] ==>
              x.value.out == [Chunk(r.pid, r.pts, r.buffer + x.value.accepted)] && x.value.rec.buffer == []
    ensures x.Err? <==> |r.buffer| + |Acquire(r.synced, data)| > ES_MAX_SIZE
    ensures x.Err? ==> x.fault == BufferOverflow
  {
    var r1 := r.(pesRemaining := I32(r.pesRemaining - |data|));
    var rest := Acquire(r.synced, data);
    if rest == [] then
      Ok(Extracted(r1, [], neverSynced, []))
    else
      match Append(r1.(synced := true), rest, pesLen, bOutput)
      case Err(e) => Err(e)
      case Ok(f) => Ok(Extracted(f.rec, f.out, neverSynced && r.synced, rest))
  }

  /**
   * A continuation packet's bytes, cut to what the PES length says is left
   * of the PES packet (compared as `size_t`, as the C code does).
   */
  function Clip(payload: seq<byte>, remaining: int): (c: seq<byte>)
    ensures |c| <= |payload| && |c| <= SizeT(remaining) && c == payload[..|c|]
    ensures |c| < |payload| ==> |c| == SizeT(remaining)
  {
    if |payload| > SizeT(remaining) then payload[..SizeT(remaining)] else payload
  }

  /** The PES header fields `extract_pes_payload` reads at a packet start. */
  datatype PesFields = PesFields(streamId: int, totalLen: int, headerLen: int, pts: int, dts: int)

  function ReadPesFields(p: seq<byte>): (h: PesFields)
    requires |p| >= 19
    ensures 0 <= h.streamId < 0x100 && 0 <= h.totalLen < 0x1_0000 && 0 <= h.headerLen < 0x100
  {
    PesFields(PesStreamId(p) as int, PesPacketLen(p) as int, PesHeadLen(p) as int, PesPts(p), PesDts(p))
  }

  /**
   * The record once a PES header is taken: the stream id, the PES length
   * still to come after the fixed part of the header and its optional
   * fields, and the timestamps.
   */
  function Latch(r: EsRecord, h: PesFields): (r1: EsRecord)
    requires ValidRecord(r)
    requires 0 <= h.streamId < 0x100 && 0 <= h.totalLen < 0x1_0000 && 0 <= h.headerLen < 0x100
    ensures ValidRecord(r1)
  {
    // A 16-bit length minus at most 257 always fits the C `int`.
    r.(pesStreamId := h.streamId, pesRemaining := h.totalLen - (2 + h.headerLen), pts := h.pts, dts := h.dts)
  }

  /** What a successful delivery of the bytes after a taken header leaves. */
  lemma BeginDelivered(r: EsRecord, h: PesFields, payload: seq<byte>, bOutput: bool,
                       neverSynced: bool, d: Extracted)
    requires ValidRecord(r) && |payload| <= 184
    requires 0 <= h.streamId < 0x100 && 0 <= h.totalLen < 0x1_0000 && 0 <= h.headerLen < 0x100
    requires 9 + h.headerLen <= |payload|
    requires Deliver(Latch(r, h), payload[9 + h.headerLen..], |payload|, bOutput, neverSynced) == Ok(d)
    ensures d.rec.pid == r.pid && d.rec.continuityCount == r.continuityCount
    ensures && d.rec.pesStreamId == h.streamId
            && d.rec.pts == h.pts && d.rec.dts == h.dts
            && d.rec.pesRemaining == h.totalLen + 7 - |payload|
  {
    var data := payload[9 + h.headerLen..];
    assert I32(Latch(r, h).pesRemaining - |data|) == h.totalLen + 7 - |payload|;
  }

  /**
   * A PES header that passed the checks: the record takes the stream id,
   * the PES length still to come and the timestamps from it, and the bytes
   * after the header are delivered.
   */
  function Begin(r: EsRecord, h: PesFields, payload: seq<byte>, bOutput: bool,
                 neverSynced: bool): (x: Result<Extracted>)
    requires ValidRecord(r) && |payload| <= 184
    requires 0 <= h.streamId < 0x100 && 0 <= h.totalLen < 0x1_0000 && 0 <= h.headerLen < 0x100
    ensures x.Ok? ==> Data(x.value.out) + x.value.rec.buffer == r.buffer + x.value.accepted
    ensures x.Ok? ==> |x.value.out| <= 1 && OnPid(x.value.out, r.pid)
    ensures x.Ok? && !bOutput ==> x.value.out == []
    ensures x.Ok? ==> ValidRecord(x.value.rec)
    ensures x.Ok? ==> x.value.rec.pid == r.pid && x.value.rec.continuityCount == r.continuityCount
    ensures x.Ok? ==> && x.value.rec.pesStreamId == h.streamId
                      && x.value.rec.pts == h.pts && x.value.rec.dts == h.dts
                      && x.value.rec.pesRemaining == h.totalLen + 7 - |payload|
    ensures x.Ok? ==> 9 + h.headerLen <= |payload| && Scanned(r.synced, payload[9 + h.headerLen..], neverSynced, x.value)
    ensures x.Ok? ==> (x.value.out != [] <==> FlushDue(x.value, |payload|, bOutput))
    ensures x.Err? ==> (x.fault == PayloadOverrun <==> 9 + h.headerLen > |payload|)
    ensures x.Err? ==> x.fault == PayloadOverrun || x.fault == BufferOverflow
  {
    if 9 + h.headerLen > |payload| then Err(PayloadOverrun)
    else
      var x := Deliver(Latch(r, h), payload[9 + h.headerLen..], |payload|, bOutput, neverSynced);
      if x.Ok? then
        BeginDelivered(r, h, payload, bOutput, neverSynced, x.value);
        x
      else x
  }

  /** Bytes handed on in two steps are conserved like bytes handed on in one. */
  lemma Chain(o1: seq<byte>, o2: seq<byte>, before: seq<byte>, mid: seq<byte>, after: seq<byte>, acc: seq<byte>)
    requires o1 + mid == before && o2 + after == mid + acc
    ensures (o1 + o2) + after == before + acc
  {
    assert (o1 + o2) + after == o1 + (o2 + after);
    assert o1 + (mid + acc) == (o1 + mid) + acc;
  }

  /** Two runs of chunks for one PID, written only while output is on, joined. */
  lemma ChunksAppend(a: seq<Chunk>, b: seq<Chunk>, pid: int, bOutput: bool)
    requires OnPid(a, pid) && OnPid(b, pid)
    requires !bOutput ==> a == [] && b == []
    ensures OnPid(a + b, pid)
    ensures !bOutput ==> a + b == []
  {
  }

  /**
   * What a taken PES header `h` leaves of the stream `r` and the packet's
   * `payload`: the record carries the header's stream id and timestamps
   * and the PES length still to come; after the flush, at most one more
   * chunk is written, exactly when the PES packet ends; and the ES bytes
   * are the ones after the header's optional fields, run through the sync
   * scan on the stream's own flag.
   */
  predicate Started(r: EsRecord, h: PesFields, payload: seq<byte>, bOutput: bool, neverSynced: bool,
                    e: Extracted)
    requires 0 <= h.headerLen
  {
    && e.rec.pesStreamId == h.streamId
    && e.rec.pts == h.pts && e.rec.dts == h.dts
    && e.rec.pesRemaining == h.totalLen + 7 - |payload|
    && |e.out| == |Flush(r, bOutput).out| + (if FlushDue(e, |payload|, bOutput) then 1 else 0)
    && 9 + h.headerLen <= |payload|
    && Scanned(r.synced, payload[9 + h.headerLen..], neverSynced, e)
  }

  /**
   * A PES header that is taken: what is buffered is flushed first, as one
   * chunk with the old timestamp, and then the new PES packet begins.
   */
  function Restart(r: EsRecord, h: PesFields, payload: seq<byte>, bOutput: bool,
                   neverSynced: bool): (x: Result<Extracted>)
    requires ValidRecord(r) && |payload| <= 184
    requires 0 <= h.streamId < 0x100 && 0 <= h.totalLen < 0x1_0000 && 0 <= h.headerLen < 0x100
    ensures x.Ok? ==> Data(x.value.out) + x.value.rec.buffer == r.buffer + x.value.accepted
    ensures x.Ok? ==> |x.value.out| <= 2 && OnPid(x.value.out, r.pid)
    ensures x.Ok? && !bOutput ==> x.value.out == []
    ensures x.Ok? ==> ValidRecord(x.value.rec)
    ensures x.Ok? ==> x.value.rec.pid == r.pid && x.value.rec.continuityCount == r.continuityCount
    ensures x.Ok? ==> Flush(r, bOutput).out <= x.value.out
    ensures x.Ok? && bOutput && r.buffer != [] ==> x.value.out[0] == Chunk(r.pid, r.pts, r.buffer)
    ensures x.Ok? ==> Started(r, h, payload, bOutput, neverSynced, x.value)
    ensures x.Err? ==> (x.fault == PayloadOverrun <==> 9 + h.headerLen > |payload|)
    ensures x.Err? ==> x.fault == PayloadOverrun || x.fault == BufferOverflow
  {
    var f := Flush(r, bOutput);
    var x := Begin(f.rec, h, payload, bOutput, neverSynced);
    if x.Err? then x
    else
      RestartStarted(r, h, payload, bOutput, neverSynced, x.value);
      FlushThenDeliver(r, bOutput, x.value);
      Ok(x.value.(out := f.out + x.value.out))
  }

  /**
   * The flush before a taken header leaves the sync flag alone, so the scan
   * after it is judged on the record's own flag, and the chunks of the
   * flush and the delivery together are the flush's and at most one more.
   */
  lemma RestartStarted(r: EsRecord, h: PesFields, payload: seq<byte>, bOutput: bool, neverSynced: bool,
                       d: Extracted)
    requires ValidRecord(r) && |payload| <= 184
    requires 0 <= h.streamId < 0x100 && 0 <= h.totalLen < 0x1_0000 && 0 <= h.headerLen < 0x100
    requires Begin(Flush(r, bOutput).rec, h, payload, bOutput, neverSynced) == Ok(d)
    ensures Started(r, h, payload, bOutput, neverSynced, d.(out := Flush(r, bOutput).out + d.out))
  {
    var f := Flush(r, bOutput);
    var e := d.(out := f.out + d.out);
    assert f.rec.synced == r.synced;
    assert Scanned(r.synced, payload[9 + h.headerLen..], neverSynced, d);
    ScannedAnyOut(r.synced, payload[9 + h.headerLen..], neverSynced, d, e.out);
    assert FlushDue(e, |payload|, bOutput) == FlushDue(d, |payload|, bOutput);
  }

  /** What the scan did does not depend on the chunks written. */
  lemma ScannedAnyOut(synced: bool, data: seq<byte>, neverSynced: bool, d: Extracted, out: seq<Chunk>)
    requires Scanned(synced, data, neverSynced, d)
    ensures Scanned(synced, data, neverSynced, d.(out := out))
  {
  }

  /**
   * The flush before a taken header followed by the delivery after it: the
   * chunks of both, in that order, conserve the bytes, and the flushed
   * chunk comes first.
   */
  lemma FlushThenDeliver(r: EsRecord, bOutput: bool, d: Extracted)
    requires Data(d.out) + d.rec.buffer == Flush(r, bOutput).rec.buffer + d.accepted
    requires OnPid(d.out, r.pid) && (!bOutput ==> d.out == [])
    ensures var out := Flush(r, bOutput).out + d.out;
      && Data(out) + d.rec.buffer == r.buffer + d.accepted
      && OnPid(out, r.pid) && (!bOutput ==> out == [])
      && Flush(r, bOutput).out <= out
      && (bOutput && r.buffer != [] ==> out[0] == Chunk(r.pid, r.pts, r.buffer))
  {
    var f := Flush(r, bOutput);
    DataAppend(f.out, d.out);
    Chain(Data(f.out), Data(d.out), r.buffer, f.rec.buffer, d.rec.buffer, d.accepted);
    ChunksAppend(f.out, d.out, r.pid, bOutput);
  }

  /**
   * The start of a PES packet whose header reads as `h` and is `valid` or
   * not: flush what is buffered (before the header is even checked), latch
   * the first stream id seen on the PID and ignore any other, then begin
   * the new PES packet.  An ignored header changes nothing but the flush.
   */
  function StartPes(r: EsRecord, h: PesFields, valid: bool, payload: seq<byte>, bOutput: bool,
                    neverSynced: bool): (x: Result<Extracted>)
    requires ValidRecord(r) && |payload| <= 184
    requires 0 <= h.streamId < 0x100 && 0 <= h.totalLen < 0x1_0000 && 0 <= h.headerLen < 0x100
    ensures x.Ok? ==> Data(x.value.out) + x.value.rec.buffer == r.buffer + x.value.accepted
    ensures x.Ok? ==> |x.value.out| <= 2 && OnPid(x.value.out, r.pid)
    ensures x.Ok? && !bOutput ==> x.value.out == []
    ensures x.Ok? ==> ValidRecord(x.value.rec)
    ensures x.Ok? ==> x.value.rec.pid == r.pid && x.value.rec.continuityCount == r.continuityCount
    ensures x.Ok? ==> Flush(r, bOutput).out <= x.value.out
    ensures x.Ok? && bOutput && r.buffer != [] ==> x.value.out[0] == Chunk(r.pid, r.pts, r.buffer)
    ensures x.Ok? && (!valid || (r.pesStreamId != -1 && h.streamId != r.pesStreamId)) ==>
              && x.value == Extracted(Flush(r, bOutput).rec, Flush(r, bOutput).out, neverSynced, [])
              && x.value.rec == r.(buffer := x.value.rec.buffer)
    ensures x.Ok? && valid && (r.pesStreamId == -1 || h.streamId == r.pesStreamId) ==>
              Started(r, h, payload, bOutput, neverSynced, x.value)
    ensures x.Err? ==> (x.fault == PayloadOverrun <==> 9 + h.headerLen > |payload|)
    ensures x.Err? ==> x.fault == PayloadOverrun || x.fault == BufferOverflow
  {
    if !valid || (r.pesStreamId != -1 && h.streamId != r.pesStreamId) then
      var f := Flush(r, bOutput);
      Ok(Extracted(f.rec, f.out, neverSynced, []))
    else
      Restart(r, h, payload, bOutput, neverSynced)
  }

  /**
   * A packet that continues a PES packet: its bytes, cut to what the PES
   * length says is left, are delivered and counted off the PES packet.
   * The guard is the stream id's truth value: a record that latched stream
   * id 0x00 skips every continuation packet, while a record that has seen
   * no header yet (stream id -1) runs the continuation path with nothing
   * left of a PES packet, so the cut keeps no byte.
   */
  function ContinuePes(r: EsRecord, payload: seq<byte>, bOutput: bool,
                       neverSynced: bool): (x: Result<Extracted>)
    requires ValidRecord(r) && |payload| <= 184
    ensures r.pesStreamId == 0 ==> x == Ok(Extracted(r, [], neverSynced, []))
    ensures x.Ok? ==> Data(x.value.out) + x.value.rec.buffer == r.buffer + x.value.accepted
    ensures x.Ok? && r.pesStreamId != 0 ==> x.value.accepted == Acquire(r.synced, Clip(payload, r.pesRemaining))
    ensures x.Ok? && r.pesStreamId != 0 ==>
              x.value.rec.pesRemaining == I32(r.pesRemaining - |Clip(payload, r.pesRemaining)|)
    ensures x.Ok? && r.pesStreamId != 0 ==> Scanned(r.synced, Clip(payload, r.pesRemaining), neverSynced, x.value)
    ensures x.Ok? ==> (x.value.out != [] <==> FlushDue(x.value, |payload|, bOutput))
    ensures x.Ok? ==> |x.value.out| <= 1 && OnPid(x.value.out, r.pid)
    ensures x.Ok? && !bOutput ==> x.value.out == []
    ensures x.Ok? ==> ValidRecord(x.value.rec)
    ensures x.Ok? ==> x.value.rec == r.(synced := x.value.rec.synced, pesRemaining := x.value.rec.pesRemaining,
                                        buffer := x.value.rec.buffer)
    ensures x.Err? <==> r.pesStreamId != 0 && |r.buffer| + |Acquire(r.synced, Clip(payload, r.pesRemaining))| > ES_MAX_SIZE
    ensures x.Err? ==> x.fault == BufferOverflow
  {
    if r.pesStreamId == 0 then
      Ok(Extracted(r, [], neverSynced, []))
    else
      Deliver(r, Clip(payload, r.pesRemaining), |payload|, bOutput, neverSynced)
  }

  /**
   * A stream that has seen no PES header yet (stream id -1, nothing left of
   * a PES packet) takes the continuation path, and keeps no byte of it.
   */
  lemma ContinueBeforeHeader(r: EsRecord, payload: seq<byte>, bOutput: bool, neverSynced: bool)
    requires ValidRecord(r) && |payload| <= 184
    requires r.pesStreamId == -1 && r.pesRemaining == 0
    ensures Clip(payload, r.pesRemaining) == []
    ensures ContinuePes(r, payload, bOutput, neverSynced) == Ok(Extracted(r, [], neverSynced, []))
  {
    assert I32(r.pesRemaining - 0) == r.pesRemaining;
  }

  /**
   * A start packet whose PES header the stream takes: the header is valid
   * and its stream id is the first one seen on the PID or the one latched.
   */
  predicate Takes(r: EsRecord, payload: seq<byte>)
    requires |payload| >= 19
  {
    ValidatePesHeader(payload) && (r.pesStreamId == -1 || PesStreamId(payload) as int == r.pesStreamId)
  }

  /**
   * `extract_pes_payload` for one packet's `payload` on the stream `r`,
   * together with the output sink.  The PES header fields, timestamps
   * included, are read before anything else, so a start packet shorter
   * than 19 bytes is a read past the packet.
   */
  function Extract(r: EsRecord, payload: seq<byte>, start: bool, bOutput: bool,
                   neverSynced: bool): (x: Result<Extracted>)
    requires ValidRecord(r) && |payload| <= 184
    ensures start && |payload| < 19 ==> x == Err(PayloadOverrun)
    ensures !start && r.pesStreamId == 0 ==> x == Ok(Extracted(r, [], neverSynced, []))
    ensures x.Ok? ==> Data(x.value.out) + x.value.rec.buffer == r.buffer + x.value.accepted
    ensures x.Ok? ==> |x.value.out| <= 2 && OnPid(x.value.out, r.pid)
    ensures x.Ok? && !bOutput ==> x.value.out == []
    ensures x.Ok? ==> ValidRecord(x.value.rec)
    ensures x.Ok? ==> x.value.rec.pid == r.pid && x.value.rec.continuityCount == r.continuityCount
    ensures x.Ok? && !start ==> x.value.rec.pesStreamId == r.pesStreamId
    ensures x.Ok? && !start && r.pesStreamId != 0 ==>
              && x.value.accepted == Acquire(r.synced, Clip(payload, r.pesRemaining))
              && x.value.rec.pesRemaining == I32(r.pesRemaining - |Clip(payload, r.pesRemaining)|)
              && Scanned(r.synced, Clip(payload, r.pesRemaining), neverSynced, x.value)
    ensures x.Ok? && !start ==> (x.value.out != [] <==> FlushDue(x.value, |payload|, bOutput))
    ensures x.Ok? && start ==> Flush(r, bOutput).out <= x.value.out
    ensures x.Ok? && start && |payload| >= 19 && !Takes(r, payload) ==>
              x.value == Extracted(Flush(r, bOutput).rec, Flush(r, bOutput).out, neverSynced, [])
    ensures x.Ok? && start && |payload| >= 19 && Takes(r, payload) ==>
              Started(r, ReadPesFields(payload), payload, bOutput, neverSynced, x.value)
    ensures x.Err? ==> x.fault == PayloadOverrun || x.fault == BufferOverflow
  {
    if start then
      if |payload| < 19 then Err(PayloadOverrun)
      else
        var x := StartPes(r, ReadPesFields(payload), ValidatePesHeader(payload), payload,
                          bOutput, neverSynced);
        x
    else ContinuePes(r, payload, bOutput, neverSynced)
  }
}

=== FILE: ts_format.dfy ===
/**
 * Wire layout of MPEG-2 transport stream packets and PES packet headers
 * (ISO/IEC 13818-1 sections 2.4.3.2, 2.4.3.3, 2.4.3.6 and 2.4.3.7), one
 * function per field accessor of the C header, plus the capacity constants.
 *
 * Every accessor works on bit-vectors, exactly as the C shifts and masks do;
 * the rest of the model converts the results to `int`.  Each group of
 * accessors is paired with a builder for the same bytes, and the two are
 * proved inverse to each other.
 */
module TsFormat {
  import opened Util

  /** Size of one transport stream packet. */
  const TS_PACKET_SIZE: nat := 188
  /** Capacity of one ES reassembly buffer: 4 << 20 bytes. */
  const ES_MAX_SIZE: nat := 0x40_0000
  /** Number of ES records and of PMT slots. */
  const MAX_NUM_ES: nat := 32
  /** First byte of every transport stream packet. */
  const TS_SYNC_BYTE: byte := 0x47
  /** PID of the Program Association Table. */
  const PAT_PID: int := 0
  /** PID of null (stuffing) packets. */
  const NULL_PID: int := 0x1FFF

  // ---------------------------------------------------------------------------
  // Transport stream packet header (4 bytes) and the adaptation field length

  function TransError(b: seq<byte>): (r: bv8)
    requires |b| >= 2
    ensures r <= 1
    ensures r == 1 <==> b[1] & 0x80 != 0
  {
    (b[1] & 0x80) >> 7
  }

  function PayloadStart(b: seq<byte>): (r: bv8)
    requires |b| >= 2
    ensures r <= 1
    ensures r == 1 <==> b[1] & 0x40 != 0
  {
    (b[1] & 0x40) >> 6
  }

  /** The C macro shifts by 4 instead of 5, so the flag reads as 0 or 2. */
  function Priority(b: seq<byte>): (r: bv8)
    requires |b| >= 2
    ensures r == 0 || r == 2
    ensures r == 2 <==> b[1] & 0x20 != 0
  {
    (b[1] & 0x20) >> 4
  }

  /** The 13-bit PID: low five bits of byte 1, then byte 2. */
  function Pid(b: seq<byte>): (r: bv16)
    requires |b| >= 3
    ensures r <= 0x1FFF
  {
    (((b[1] & 0x1F) as bv16) << 8) | b[2] as bv16
  }

  function Scrambling(b: seq<byte>): (r: bv8)
    requires |b| >= 4
    ensures r <= 3
  {
    (b[3] & 0xC0) >> 6
  }

  function Adaptation(b: seq<byte>): (r: bv8)
    requires |b| >= 4
    ensures r <= 3
  {
    (b[3] & 0x30) >> 4
  }

  function ContCount(b: seq<byte>): (r: bv8)
    requires |b| >= 4
    ensures r <= 15
  {
    b[3] & 0x0F
  }

  function AdaptLen(b: seq<byte>): (r: int)
    requires |b| >= 5
    ensures 0 <= r <= 255
  {
    b[4] as int
  }

  /** The decoded 4-byte header, field by field, as the accessors read it. */
  datatype TsHeader = TsHeader(
    transError: bv8,
    payloadStart: bv8,
    priority: bv8,
    pid: bv16,
    scrambling: bv8,
    adaptation: bv8,
    contCount: bv8)

  /** Field values that the 4-byte header can carry. */
  predicate WellFormedTsHeader(h: TsHeader)
  {
    && h.transError <= 1
    && h.payloadStart <= 1
    && (h.priority == 0 || h.priority == 2)
    && h.pid <= 0x1FFF
    && h.scrambling <= 3
    && h.adaptation <= 3
    && h.contCount <= 15
  }

  function ParseTsHeader(b: seq<byte>): (h: TsHeader)
    requires |b| >= 4
    ensures WellFormedTsHeader(h)
  {
    TsHeader(TransError(b), PayloadStart(b), Priority(b), Pid(b),
             Scrambling(b), Adaptation(b), ContCount(b))
  }

  /** The header bytes a multiplexer writes for `h` (section 2.4.3.2 of ISO/IEC 13818-1). */
  function BuildTsHeader(h: TsHeader): (b: seq<byte>)
    requires WellFormedTsHeader(h)
    ensures |b| == 4 && b[0] == TS_SYNC_BYTE
  {
    [TS_SYNC_BYTE,
     (h.transError << 7) | (h.payloadStart << 6) | (h.priority << 4) | ((h.pid >> 8) as bv8),
     (h.pid & 0xFF) as bv8,
     (h.scrambling << 6) | (h.adaptation << 4) | h.contCount]
  }

  /** Every well-formed header survives being written and read back. */
  lemma ParseBuildTsHeader(h: TsHeader)
    requires WellFormedTsHeader(h)
    ensures ParseTsHeader(BuildTsHeader(h)) == h
  {
    FlagsRoundTrip(h);
    PidFieldRoundTrip(h);
    ControlRoundTrip(h);
  }

  /** The three flags of byte 1 read back as written. */
  lemma FlagsRoundTrip(h: TsHeader)
    requires WellFormedTsHeader(h)
    ensures var b := BuildTsHeader(h);
      TransError(b) == h.transError && PayloadStart(b) == h.payloadStart && Priority(b) == h.priority
  {
    FlagsByteFields(h.transError, h.payloadStart, h.priority, (h.pid >> 8) as bv8);
  }

  /** The PID split across bytes 1 and 2 reads back as written. */
  lemma PidFieldRoundTrip(h: TsHeader)
    requires WellFormedTsHeader(h)
    ensures Pid(BuildTsHeader(h)) == h.pid
  {
    PidBytes(h.transError, h.payloadStart, h.priority, h.pid);
  }

  /** The fields of byte 3 read back as written. */
  lemma ControlRoundTrip(h: TsHeader)
    requires WellFormedTsHeader(h)
    ensures var b := BuildTsHeader(h);
      Scrambling(b) == h.scrambling && Adaptation(b) == h.adaptation && ContCount(b) == h.contCount
  {
    ControlByteFields(h.scrambling, h.adaptation, h.contCount);
  }

  /** Byte 1 keeps its three flags and the PID's high bits apart. */
  lemma FlagsByteFields(t: bv8, s: bv8, p: bv8, hi: bv8)
    requires t <= 1 && s <= 1 && (p == 0 || p == 2) && hi <= 0x1F
    ensures var x := (t << 7) | (s << 6) | (p << 4) | hi;
      (x & 0x80) >> 7 == t && (x & 0x40) >> 6 == s && (x & 0x20) >> 4 == p && x & 0x1F == hi
  {
  }

  /** The PID's high bits in byte 1 and its low byte in byte 2 rebuild it. */
  lemma PidBytes(t: bv8, s: bv8, p: bv8, pid: bv16)
    requires t <= 1 && s <= 1 && (p == 0 || p == 2) && pid <= 0x1FFF
    ensures var b1 := (t << 7) | (s << 6) | (p << 4) | ((pid >> 8) as bv8);
      (((b1 & 0x1F) as bv16) << 8) | ((pid & 0xFF) as bv8) as bv16 == pid
  {
  }

  /** Byte 3 keeps the scrambling, adaptation and continuity fields apart. */
  lemma ControlByteFields(sc: bv8, ad: bv8, cc: bv8)
    requires sc <= 3 && ad <= 3 && cc <= 15
    ensures var x := (sc << 6) | (ad << 4) | cc;
      (x & 0xC0) >> 6 == sc && (x & 0x30) >> 4 == ad && x & 0x0F == cc
  {
  }

  /** The accessors lose no bit of a header that starts with the sync byte. */
  lemma BuildParseTsHeader(b: seq<byte>)
    requires |b| >= 4 && b[0] == TS_SYNC_BYTE
    ensures BuildTsHeader(ParseTsHeader(b)) == b[..4]
  {
  }

  /** Packing any 13-bit PID into bytes 1 and 2 and extracting it gives it back,
      whatever the three flag bits above it hold. */
  lemma PidRoundTrip(b: seq<byte>, p: bv16, flags: bv8)
    requires |b| >= 3 && p <= 0x1FFF
    ensures Pid(b[1 := (flags & 0xE0) | (p >> 8) as bv8][2 := (p & 0xFF) as bv8]) == p
  {
  }

  // ---------------------------------------------------------------------------
  // PES packet header (the fixed 9 bytes and the PTS/DTS fields behind them)

  function PesStartCodeOk(b: seq<byte>): (r: bool)
    requires |b| >= 3
    ensures r <==> b[..3] == [0x00, 0x00, 0x01]
  {
    b[0] == 0x00 && b[1] == 0x00 && b[2] == 0x01
  }

  function PesStreamId(b: seq<byte>): bv8
    requires |b| >= 4
  {
    b[3]
  }

  /** PES_packet_length: big-endian 16-bit value of bytes 4 and 5. */
  function PesPacketLen(b: seq<byte>): (r: bv16)
    requires |b| >= 6
    ensures (r >> 8) as bv8 == b[4] && (r & 0xFF) as bv8 == b[5]
  {
    ((b[4] as bv16) << 8) | b[5] as bv16
  }

  /** The two marker bits '10' that open the optional PES header. */
  function PesSyncCode(b: seq<byte>): (r: bv8)
    requires |b| >= 7
    ensures r <= 3
  {
    (b[6] & 0xC0) >> 6
  }

  function PesScrambled(b: seq<byte>): (r: bv8)
    requires |b| >= 7
    ensures r <= 3
  {
    (b[6] & 0x30) >> 4
  }

  function PesHeadLen(b: seq<byte>): bv8
    requires |b| >= 9
  {
    b[8]
  }

  /**
   * The 33-bit timestamp packed in five bytes starting at `at`, read as the C
   * macro reads it: every part is cast to `uint32_t`, so the top bit (bit 32)
   * is shifted out and lost.
   */
  function Timestamp32(b: seq<byte>, at: nat): bv32
    requires at + 5 <= |b|
  {
    (((b[at] & 0x0E) as bv32) << 29)
    | ((b[at + 1] as bv32) << 22)
    | (((b[at + 2] & 0xFE) as bv32) << 14)
    | ((b[at + 3] as bv32) << 7)
    | ((b[at + 4] as bv32) >> 1)
  }

  function PesPts(b: seq<byte>): (r: int)
    requires |b| >= 14
    ensures 0 <= r < TWO_32
  {
    Timestamp32(b, 9) as int
  }

  function PesDts(b: seq<byte>): (r: int)
    requires |b| >= 19
    ensures 0 <= r < TWO_32
  {
    Timestamp32(b, 14) as int
  }

  /**
   * The five bytes that carry a 33-bit timestamp `t` after the 4-bit `prefix`
   * (section 2.4.3.7 of ISO/IEC 13818-1): bits 32..30, a marker, bits 29..15,
   * a marker, bits 14..0, a marker.
   */
  function BuildTimestamp(prefix: bv8, t: bv64): (b: seq<byte>)
    requires prefix <= 0xF && t < 0x2_0000_0000
    ensures |b| == 5
  {
    [(prefix << 4) | (((t >> 30) & 0x7) as bv8 << 1) | 1,
     ((t >> 22) & 0xFF) as bv8,
     (((t >> 15) & 0x7F) as bv8 << 1) | 1,
     ((t >> 7) & 0xFF) as bv8,
     ((t & 0x7F) as bv8 << 1) | 1]
  }

  /** Reading back a packed timestamp yields its low 32 bits: bit 32 is dropped. */
  lemma TimestampRoundTrip(prefix: bv8, t: bv64)
    requires prefix <= 0xF && t < 0x2_0000_0000
    ensures Timestamp32(BuildTimestamp(prefix, t), 0) == (t & 0xFFFF_FFFF) as bv32
  {
  }

  /**
   * A PES header with PTS and DTS, not scrambled, as written by a
   * multiplexer: the 9 fixed bytes, then the 10 timestamp bytes, then
   * `headLen - 10` stuffing bytes.
   */
  function BuildPesHeader(streamId: bv8, packetLen: bv16, headLen: bv8, pts: bv64, dts: bv64): (b: seq<byte>)
    requires 10 <= headLen
    requires pts < 0x2_0000_0000 && dts < 0x2_0000_0000
    ensures |b| == 9 + headLen as int
  {
    [0x00, 0x00, 0x01, streamId, (packetLen >> 8) as bv8, (packetLen & 0xFF) as bv8,
     0x80, 0xC0, headLen]
    + BuildTimestamp(3, pts) + BuildTimestamp(1, dts)
    + seq(headLen as int - 10, _ => 0xFF)
  }

  /** Every field accessor returns what `BuildPesHeader` stored. */
  lemma ParseBuildPesHeader(streamId: bv8, packetLen: bv16, headLen: bv8, pts: bv64, dts: bv64)
    requires 10 <= headLen
    requires pts < 0x2_0000_0000 && dts < 0x2_0000_0000
    ensures var b := BuildPesHeader(streamId, packetLen, headLen, pts, dts);
      && PesStartCodeOk(b)
      && PesStreamId(b) == streamId
      && PesPacketLen(b) == packetLen
      && PesSyncCode(b) == 2
      && PesScrambled(b) == 0
      && PesHeadLen(b) == headLen
      && Timestamp32(b, 9) == (pts & 0xFFFF_FFFF) as bv32
      && Timestamp32(b, 14) == (dts & 0xFFFF_FFFF) as bv32
  {
    var b := BuildPesHeader(streamId, packetLen, headLen, pts, dts);
    assert b[..9] == [0x00, 0x00, 0x01, streamId, (packetLen >> 8) as bv8, (packetLen & 0xFF) as bv8,
                      0x80, 0xC0, headLen];
    PesFixedFields(b, streamId, packetLen, headLen);
    assert b[9..14] == BuildTimestamp(3, pts);
    assert b[14..19] == BuildTimestamp(1, dts);
    TimestampAt(b, 9);
    TimestampAt(b, 14);
    TimestampRoundTrip(3, pts);
    TimestampRoundTrip(1, dts);
  }

  lemma PesFixedFields(b: seq<byte>, streamId: bv8, packetLen: bv16, headLen: bv8)
    requires |b| >= 9
    requires b[..9] == [0x00, 0x00, 0x01, streamId, (packetLen >> 8) as bv8, (packetLen & 0xFF) as bv8,
                        0x80, 0xC0, headLen]
    ensures PesStartCodeOk(b) && PesStreamId(b) == streamId && PesPacketLen(b) == packetLen
    ensures PesSyncCode(b) == 2 && PesScrambled(b) == 0 && PesHeadLen(b) == headLen
  {
    assert b[4] == (packetLen >> 8) as bv8 && b[5] == (packetLen & 0xFF) as bv8;
    assert b[6] == 0x80;
  }

  /** A timestamp depends only on its own five bytes. */
  lemma TimestampAt(b: seq<byte>, at: nat)
    requires at + 5 <= |b|
    ensures Timestamp32(b, at) == Timestamp32(b[at..at + 5], 0)
  {
  }
}

=== FILE: ts_table.dfy ===
/**
 * Program-specific information: the Program Association Table (section
 * 2.4.4.3 of ISO/IEC 13818-1) and the Program Map Table (section 2.4.4.8),
 * decoded the way the demultiplexer decodes them, and written the way a
 * multiplexer writes them.
 *
 * Multi-byte fields are read as `hi * 256 + lo`, which is the value of the
 * C expression `hi << 8 | lo` for bytes.  The CRC_32 and the header fields
 * the decoders never use (table_id, version_number, ...) are not read.
 */
module TsTable {
  import opened Util
  import opened TsFormat

  // ---------------------------------------------------------------------------
  // Fields common to both tables

  /** section_length: the low four bits of byte 1, then byte 2. */
  function SectionLength(sec: seq<byte>): (r: int)
    requires |sec| >= 3
    ensures 0 <= r < 0x1000
  {
    (sec[1] & 0x0F) as int * 0x100 + sec[2] as int
  }

  /** A 13-bit PID stored in the low five bits of `sec[at]` and in `sec[at + 1]`. */
  function Pid13(sec: seq<byte>, at: nat): (r: int)
    requires at + 2 <= |sec|
    ensures 0 <= r < 0x2000
  {
    (sec[at] & 0x1F) as int * 0x100 + sec[at + 1] as int
  }

  /** A 12-bit length stored in the low four bits of `sec[at]` and in `sec[at + 1]`. */
  function Len12(sec: seq<byte>, at: nat): (r: int)
    requires at + 2 <= |sec|
    ensures 0 <= r < 0x1000
  {
    (sec[at] & 0x0F) as int * 0x100 + sec[at + 1] as int
  }

  /**
   * Reading fields from serialised values: the masks of the decoders are
   * remainders of the values.
   */
  lemma ReadFields(sec: seq<byte>, v: seq<int>, at: nat)
    requires Encodes(sec, v) && at + 2 <= |v|
    ensures Pid13(sec, at) == v[at] % 0x20 * 0x100 + v[at + 1]
    ensures Len12(sec, at) == v[at] % 0x10 * 0x100 + v[at + 1]
  {
    ByteMasks(sec[at]);
  }

  lemma ReadSectionLength(sec: seq<byte>, v: seq<int>)
    requires Encodes(sec, v) && 3 <= |v|
    ensures SectionLength(sec) == v[1] % 0x10 * 0x100 + v[2]
  {
    ByteMasks(sec[1]);
  }

  /** A slice of `a + b + c` lying within `b` is a slice of `b`. */
  lemma SliceOfMiddle<T>(a: seq<T>, b: seq<T>, c: seq<T>, i: nat, j: nat)
    requires |a| <= i <= j <= |a| + |b|
    ensures (a + b + c)[i .. j] == b[i - |a| .. j - |a|]
  {
    assert forall x | i <= x < j :: (a + b + c)[x] == b[x - |a|];
  }

  /** Where `v` holds `a + b + c` from `pos` on, it holds `a` at `pos` and `c` after `b`. */
  lemma SliceOfThree<T>(v: seq<T>, pos: nat, a: seq<T>, b: seq<T>, c: seq<T>)
    requires pos + |a + b + c| <= |v| && v[pos .. pos + |a + b + c|] == a + b + c
    ensures v[pos .. pos + |a|] == a
    ensures v[pos + |a| + |b| .. pos + |a| + |b| + |c|] == c
  {
    var w := a + b + c;
    forall i | 0 <= i < |a|
      ensures v[pos .. pos + |a|][i] == a[i]
    {
      assert v[pos + i] == v[pos .. pos + |w|][i] == w[i];
    }
    var j := pos + |a| + |b|;
    forall i | 0 <= i < |c|
      ensures v[j .. j + |c|][i] == c[i]
    {
      assert v[j + i] == v[pos .. pos + |w|][|a| + |b| + i] == w[|a| + |b| + i];
    }
  }

  /** The values a multiplexer writes for a 13-bit PID (three reserved bits set). */
  function PidVals(pid: int): (v: seq<int>)
    requires 0 <= pid < 0x2000
    ensures |v| == 2 && IsByteValues(v)
    ensures v[0] % 0x20 * 0x100 + v[1] == pid
  {
    [0xE0 + pid / 0x100, pid % 0x100]
  }

  /** The values a multiplexer writes for a 12-bit length (four reserved bits set). */
  function LenVals(len: int): (v: seq<int>)
    requires 0 <= len < 0x1000
    ensures |v| == 2 && IsByteValues(v)
    ensures v[0] % 0x10 * 0x100 + v[1] == len
  {
    [0xF0 + len / 0x100, len % 0x100]
  }

  /** The big-endian values of a 16-bit number. */
  function U16Vals(x: int): (v: seq<int>)
    requires 0 <= x < 0x10000
    ensures |v| == 2 && IsByteValues(v)
    ensures v[0] * 0x100 + v[1] == x
  {
    [x / 0x100, x % 0x100]
  }

  /**
   * The eight values that open a one-section table: table_id, the
   * section_syntax_indicator and section_length, the 16-bit table id
   * extension, version 0 / current, section 0 of 0.
   */
  function SectionHeaderVals(tableId: int, sectionLength: int, extension: int): (v: seq<int>)
    requires 0 <= tableId < 0x100 && 0 <= sectionLength < 0x1000 && 0 <= extension < 0x10000
    ensures |v| == 8 && IsByteValues(v)
    ensures v[1] % 0x10 * 0x100 + v[2] == sectionLength
  {
    [tableId, 0xB0 + sectionLength / 0x100, sectionLength % 0x100]
    + U16Vals(extension) + [0xC1, 0x00, 0x00]
  }

  /** The CRC_32 field, left zero: the decoders never check it. */
  const CRC_PLACEHOLDER: seq<int> := [0, 0, 0, 0]

  // ---------------------------------------------------------------------------
  // Program Association Table

  /** One program loop entry: program_number and its (network or PMT) PID. */
  datatype PatEntry = PatEntry(programNumber: int, pid: int)

  predicate WellFormedPatEntry(e: PatEntry)
  {
    0 <= e.programNumber < 0x10000 && 0 <= e.pid < 0x2000
  }

  /** The entry at loop offset `n`: bytes 8+n .. 11+n of the section. */
  function PatEntryAt(sec: seq<byte>, n: nat): (e: PatEntry)
    requires 12 + n <= |sec|
    ensures WellFormedPatEntry(e)
  {
    PatEntry(sec[8 + n] as int * 0x100 + sec[9 + n] as int, Pid13(sec, 10 + n))
  }

  /** How many times the loop `for (n = 0; n < section_length - 12; n += 4)` runs. */
  function PatEntryCount(sectionLength: int): (k: nat)
    ensures 4 * k >= sectionLength - 12
    ensures k > 0 ==> 4 * (k - 1) < sectionLength - 12
  {
    if sectionLength <= 12 then 0 else (sectionLength - 12 + 3) / 4
  }

  /**
   * Every byte the decoder reads lies inside the bytes available: the eight
   * header bytes, the CRC_32 at offsets section_length - 1 .. section_length
   * + 2, and every loop entry.  The CRC is read but never used; with a
   * section_length of 0 it starts one byte before the section, which is
   * still the pointer field of the packet, so only its far end is bounded.
   */
  predicate PatFits(sec: seq<byte>)
  {
    && |sec| >= 8
    && SectionLength(sec) + 3 <= |sec|
    && 8 + 4 * PatEntryCount(SectionLength(sec)) <= |sec|
  }

  /** The entries the loop reads, in order. */
  function PatEntries(sec: seq<byte>): (es: seq<PatEntry>)
    requires PatFits(sec)
    ensures |es| == PatEntryCount(SectionLength(sec))
  {
    seq(PatEntryCount(SectionLength(sec)), k requires 0 <= k < PatEntryCount(SectionLength(sec)) =>
      PatEntryAt(sec, 4 * k))
  }

  /**
   * The loop body applied to every entry in turn, starting from `pmtPid`:
   * an entry with program_number 0 (the network PID) leaves the PMT PID
   * alone, any other entry replaces it, so the last program listed wins.
   */
  function LastProgramPid(es: seq<PatEntry>, pmtPid: int): (r: int)
    ensures (forall k | 0 <= k < |es| :: es[k].programNumber == 0) ==> r == pmtPid
    ensures (exists k | 0 <= k < |es| :: es[k].programNumber != 0) ==>
              exists j | 0 <= j < |es| ::
                && es[j].programNumber != 0 && r == es[j].pid
                && forall k | j < k < |es| :: es[k].programNumber == 0
    decreases |es|
  {
    if es == [] then pmtPid
    else
      var r := LastProgramPid(es[1..], if es[0].programNumber == 0 then pmtPid else es[0].pid);
      assert forall k | 1 <= k < |es| :: es[k] == es[1..][k - 1];
      r
  }

  /**
   * `ts2es_decode_pat`: the PMT PID announced by the section, -1 when it
   * lists no program, or `SectionOverrun` when an entry lies past the end of
   * the bytes available.
   */
  function DecodePat(sec: seq<byte>): (r: Result<int>)
    ensures r.Ok? <==> PatFits(sec)
    ensures r.Ok? ==> -1 <= r.value < 0x2000
    ensures r.Err? ==> r.fault == SectionOverrun
  {
    if PatFits(sec) then
      var es := PatEntries(sec);
      assert forall k | 0 <= k < |es| :: WellFormedPatEntry(es[k]);
      Ok(LastProgramPid(es, -1))
    else Err(SectionOverrun)
  }

  /**
   * A section whose section_length is 0 lists no program: it decodes, and
   * the PMT PID stays -1.
   */
  lemma PatZeroLength(sec: seq<byte>)
    requires |sec| >= 8 && sec[1] & 0x0F == 0 && sec[2] == 0
    ensures SectionLength(sec) == 0
    ensures DecodePat(sec) == Ok(-1)
  {
  }

  function PatEntryVals(e: PatEntry): (v: seq<int>)
    requires WellFormedPatEntry(e)
    ensures |v| == 4 && IsByteValues(v)
  {
    U16Vals(e.programNumber) + PidVals(e.pid)
  }

  function PatLoopVals(es: seq<PatEntry>): (v: seq<int>)
    requires forall k | 0 <= k < |es| :: WellFormedPatEntry(es[k])
    ensures |v| == 4 * |es| && IsByteValues(v)
  {
    if es == [] then [] else PatEntryVals(es[0]) + PatLoopVals(es[1..])
  }

  function PatSectionVals(tsId: int, es: seq<PatEntry>): (v: seq<int>)
    requires 0 <= tsId < 0x10000 && |es| <= 1000
    requires forall k | 0 <= k < |es| :: WellFormedPatEntry(es[k])
    ensures |v| == 12 + 4 * |es| && IsByteValues(v)
  {
    SectionHeaderVals(0x00, 9 + 4 * |es|, tsId) + PatLoopVals(es) + CRC_PLACEHOLDER
  }

  /** A complete PAT section for transport stream `tsId` listing `es`. */
  function BuildPat(tsId: int, es: seq<PatEntry>): (sec: seq<byte>)
    requires 0 <= tsId < 0x10000 && |es| <= 1000
    requires forall k | 0 <= k < |es| :: WellFormedPatEntry(es[k])
    ensures |sec| == 12 + 4 * |es|
  {
    Bytes(PatSectionVals(tsId, es))
  }

  /** The entry encoded at offset 4 * k of the loop is `es[k]`. */
  lemma {:induction false} PatLoopValsAt(es: seq<PatEntry>, k: nat)
    requires forall j | 0 <= j < |es| :: WellFormedPatEntry(es[j])
    requires k < |es|
    ensures PatLoopVals(es)[4 * k .. 4 * k + 4] == PatEntryVals(es[k])
    decreases k
  {
    if k > 0 {
      PatLoopValsAt(es[1..], k - 1);
      assert PatLoopVals(es) == PatEntryVals(es[0]) + PatLoopVals(es[1..]);
    }
  }

  /** Reading entry values `PatEntryVals(e)` at loop offset `n` gives `e` back. */
  lemma PatEntryRoundTrip(sec: seq<byte>, v: seq<int>, n: nat, e: PatEntry)
    requires WellFormedPatEntry(e) && Encodes(sec, v)
    requires 12 + n <= |v| && v[8 + n .. 12 + n] == PatEntryVals(e)
    ensures PatEntryAt(sec, n) == e
  {
    var w := PatEntryVals(e);
    assert v[8 + n] == w[0] && v[9 + n] == w[1] && v[10 + n] == w[2] && v[11 + n] == w[3];
    ReadFields(sec, v, 10 + n);
  }

  lemma PatBuiltEntry(tsId: int, es: seq<PatEntry>, k: nat)
    requires 0 <= tsId < 0x10000 && |es| <= 1000
    requires forall j | 0 <= j < |es| :: WellFormedPatEntry(es[j])
    requires k < |es|
    ensures PatEntryAt(BuildPat(tsId, es), 4 * k) == es[k]
  {
    PatLoopValsAt(es, k);
    SliceOfMiddle(SectionHeaderVals(0x00, 9 + 4 * |es|, tsId), PatLoopVals(es), CRC_PLACEHOLDER,
                  8 + 4 * k, 12 + 4 * k);
    PatEntryRoundTrip(BuildPat(tsId, es), PatSectionVals(tsId, es), 4 * k, es[k]);
  }

  lemma PatBuiltLength(tsId: int, es: seq<PatEntry>)
    requires 0 <= tsId < 0x10000 && |es| <= 1000
    requires forall k | 0 <= k < |es| :: WellFormedPatEntry(es[k])
    ensures SectionLength(BuildPat(tsId, es)) == 9 + 4 * |es|
  {
    ReadSectionLength(BuildPat(tsId, es), PatSectionVals(tsId, es));
  }

  lemma PatBuiltFits(tsId: int, es: seq<PatEntry>)
    requires 0 <= tsId < 0x10000 && |es| <= 1000
    requires forall k | 0 <= k < |es| :: WellFormedPatEntry(es[k])
    ensures PatFits(BuildPat(tsId, es))
    ensures PatEntryCount(SectionLength(BuildPat(tsId, es))) == |es|
  {
    PatBuiltLength(tsId, es);
  }

  /** The decoder reads back exactly the entries the builder wrote. */
  lemma PatRoundTrip(tsId: int, es: seq<PatEntry>)
    requires 0 <= tsId < 0x10000 && |es| <= 1000
    requires forall k | 0 <= k < |es| :: WellFormedPatEntry(es[k])
    ensures PatFits(BuildPat(tsId, es))
    ensures PatEntries(BuildPat(tsId, es)) == es
    ensures DecodePat(BuildPat(tsId, es)) == Ok(LastProgramPid(es, -1))
  {
    PatBuiltFits(tsId, es);
    var got := PatEntries(BuildPat(tsId, es));
    forall k | 0 <= k < |es|
      ensures got[k] == es[k]
    {
      PatBuiltEntry(tsId, es, k);
    }
  }

  // ---------------------------------------------------------------------------
  // Program Map Table

  /** One elementary-stream entry (the descriptor accumulator is not modelled). */
  datatype PmtEntry = PmtEntry(streamType: int, pid: int, esInfoLength: int)

  /** A zeroed PMT slot, as `memset` leaves it. */
  const EMPTY_SLOT: PmtEntry := PmtEntry(0, 0, 0)

  predicate WellFormedPmtEntry(e: PmtEntry)
  {
    0 <= e.streamType < 0x100 && 0 <= e.pid < 0x2000 && 0 <= e.esInfoLength < 0x1000
  }

  /** PCR_PID: the 16-bit value of bytes 8..9 masked to 13 bits. */
  function PcrPid(sec: seq<byte>): (r: int)
    requires |sec| >= 10
    ensures 0 <= r < 0x2000
  {
    Pid13(sec, 8)
  }

  function ProgramInfoLength(sec: seq<byte>): (r: int)
    requires |sec| >= 12
    ensures 0 <= r < 0x1000
  {
    Len12(sec, 10)
  }

  /** The entry at `pos`: stream_type, elementary_PID, ES_info_length. */
  function PmtEntryAt(sec: seq<byte>, pos: nat): (e: PmtEntry)
    requires pos + 5 <= |sec|
    ensures WellFormedPmtEntry(e)
  {
    PmtEntry(sec[pos] as int, Pid13(sec, pos + 1), Len12(sec, pos + 3))
  }

  /**
   * The loop `for (; pos <= section_length + 2 - 4;)`: reads one entry at
   * `pos` (and, when it has descriptors, the descriptor byte after it),
   * skips the descriptors, and continues after them.  Each entry takes at
   * least five bytes of the section.
   */
  function PmtScan(sec: seq<byte>, pos: nat, sectionLength: int): (r: Result<seq<PmtEntry>>)
    ensures r.Ok? ==> forall k | 0 <= k < |r.value| :: WellFormedPmtEntry(r.value[k])
    ensures r.Ok? ==> 5 * |r.value| <= if pos <= sectionLength - 2 then sectionLength + 3 - pos else 0
    ensures r.Err? ==> pos <= sectionLength - 2
    ensures r.Err? ==> r.fault == SectionOverrun
    decreases sectionLength - pos
  {
    if pos <= sectionLength - 2 then
      if pos + 5 > |sec| then Err(SectionOverrun)
      else if Len12(sec, pos + 3) != 0 && pos + 6 > |sec| then Err(SectionOverrun)
      else
        var e := PmtEntryAt(sec, pos);
        match PmtScan(sec, pos + 5 + e.esInfoLength, sectionLength)
        case Err(f) => Err(f)
        case Ok(rest) => Ok([e] + rest)
    else Ok([])
  }

  /**
   * `ts2es_decode_pmt` up to the table write: the elementary streams in the
   * order the section lists them, or `SectionOverrun` when the header or an
   * entry lies past the end of the bytes available.
   */
  function DecodePmt(sec: seq<byte>): (r: Result<seq<PmtEntry>>)
    ensures |sec| < 12 ==> r == Err(SectionOverrun)
    ensures r.Err? ==> r.fault == SectionOverrun
    ensures r.Ok? ==> forall k | 0 <= k < |r.value| :: WellFormedPmtEntry(r.value[k])
  {
    if |sec| < 12 then Err(SectionOverrun)
    else PmtScan(sec, 12 + ProgramInfoLength(sec), SectionLength(sec))
  }

  /** The table after `ts2es_decode_pat`: every slot zeroed. */
  function EmptyPmtTable(): (t: seq<PmtEntry>)
    ensures |t| == MAX_NUM_ES
    ensures forall i | 0 <= i < |t| :: t[i] == EMPTY_SLOT
  {
    seq(MAX_NUM_ES, _ => EMPTY_SLOT)
  }

  /**
   * The table write of `ts2es_decode_pmt`: entry k goes to slot k, slots past
   * the last entry keep their old contents.  Entries beyond the table's
   * capacity are dropped and reported, where the C code writes past the end.
   */
  function StorePmt(table: seq<PmtEntry>, es: seq<PmtEntry>): (r: (seq<PmtEntry>, bool))
    requires |table| == MAX_NUM_ES
    ensures |r.0| == MAX_NUM_ES
    ensures forall i | 0 <= i < MAX_NUM_ES :: r.0[i] == (if i < |es| then es[i] else table[i])
    ensures r.1 <==> |es| > MAX_NUM_ES
  {
    var n := Min(|es|, MAX_NUM_ES);
    (es[..n] + table[n..], |es| > MAX_NUM_ES)
  }

  /** stream_type, elementary_PID and ES_info_length of one entry. */
  function PmtEntryHead(e: PmtEntry): (v: seq<int>)
    requires WellFormedPmtEntry(e)
    ensures |v| == 5 && IsByteValues(v)
  {
    [e.streamType] + PidVals(e.pid) + LenVals(e.esInfoLength)
  }

  /** `n` bytes of descriptors (ES_info_length or program_info_length); their contents are never read. */
  function Descriptors(n: nat): (v: seq<int>)
    ensures |v| == n && IsByteValues(v)
  {
    seq(n, _ => 0xFF)
  }

  /** One entry followed by its descriptors. */
  function PmtEntryVals(e: PmtEntry): (v: seq<int>)
    requires WellFormedPmtEntry(e)
    ensures |v| == 5 + e.esInfoLength && IsByteValues(v)
  {
    PmtEntryHead(e) + Descriptors(e.esInfoLength)
  }

  function PmtLoopVals(es: seq<PmtEntry>): (v: seq<int>)
    requires forall k | 0 <= k < |es| :: WellFormedPmtEntry(es[k])
    ensures |v| >= 5 * |es| && IsByteValues(v)
  {
    if es == [] then [] else PmtEntryVals(es[0]) + PmtLoopVals(es[1..])
  }

  function PmtSectionVals(program: int, pcrPid: int, pil: nat, es: seq<PmtEntry>): (v: seq<int>)
    requires 0 <= program < 0x10000 && 0 <= pcrPid < 0x2000
    requires forall k | 0 <= k < |es| :: WellFormedPmtEntry(es[k])
    requires 13 + pil + |PmtLoopVals(es)| < 0x1000
    ensures |v| == 16 + pil + |PmtLoopVals(es)| && IsByteValues(v)
  {
    SectionHeaderVals(0x02, 13 + pil + |PmtLoopVals(es)|, program) + PidVals(pcrPid) + LenVals(pil)
    + Descriptors(pil) + PmtLoopVals(es) + CRC_PLACEHOLDER
  }

  /**
   * A complete PMT section for `program` with its PCR on `pcrPid`, `pil`
   * bytes of program descriptors, listing the streams `es`.
   */
  function BuildPmt(program: int, pcrPid: int, pil: nat, es: seq<PmtEntry>): (sec: seq<byte>)
    requires 0 <= program < 0x10000 && 0 <= pcrPid < 0x2000
    requires forall k | 0 <= k < |es| :: WellFormedPmtEntry(es[k])
    requires 13 + pil + |PmtLoopVals(es)| < 0x1000
    ensures |sec| == 16 + pil + |PmtLoopVals(es)|
  {
    Bytes(PmtSectionVals(program, pcrPid, pil, es))
  }

  /** Reading the entry head of `e` at `pos` gives `e` back. */
  lemma PmtEntryRoundTrip(sec: seq<byte>, v: seq<int>, pos: nat, e: PmtEntry)
    requires WellFormedPmtEntry(e) && Encodes(sec, v)
    requires pos + 5 <= |v| && v[pos .. pos + 5] == PmtEntryHead(e)
    ensures PmtEntryAt(sec, pos) == e
  {
    var w := PmtEntryHead(e);
    assert v[pos] == w[0] && v[pos + 1] == w[1] && v[pos + 2] == w[2];
    assert v[pos + 3] == w[3] && v[pos + 4] == w[4];
    ReadFields(sec, v, pos + 1);
    ReadFields(sec, v, pos + 3);
  }

  /** The loop values of `es` split into the first entry's head, its descriptors and the rest. */
  lemma PmtLoopSplit(v: seq<int>, pos: nat, es: seq<PmtEntry>)
    requires es != [] && forall k | 0 <= k < |es| :: WellFormedPmtEntry(es[k])
    requires pos + |PmtLoopVals(es)| <= |v|
    requires v[pos .. pos + |PmtLoopVals(es)|] == PmtLoopVals(es)
    ensures v[pos .. pos + 5] == PmtEntryHead(es[0])
    ensures |PmtLoopVals(es)| == 5 + es[0].esInfoLength + |PmtLoopVals(es[1..])|
    ensures var next := pos + 5 + es[0].esInfoLength;
      && next + |PmtLoopVals(es[1..])| <= |v|
      && v[next .. next + |PmtLoopVals(es[1..])|] == PmtLoopVals(es[1..])
  {
    SliceOfThree(v, pos, PmtEntryHead(es[0]), Descriptors(es[0].esInfoLength), PmtLoopVals(es[1..]));
  }

  /** One turn of the PMT loop over an entry that lies inside the section. */
  lemma PmtScanStep(sec: seq<byte>, pos: nat, sectionLength: int, es: seq<PmtEntry>)
    requires es != [] && pos <= sectionLength - 2 && pos + 5 <= |sec| && PmtEntryAt(sec, pos) == es[0]
    requires es[0].esInfoLength != 0 ==> pos + 6 <= |sec|
    requires PmtScan(sec, pos + 5 + es[0].esInfoLength, sectionLength) == Ok(es[1..])
    ensures PmtScan(sec, pos, sectionLength) == Ok(es)
  {
    assert Len12(sec, pos + 3) == es[0].esInfoLength;
    assert PmtScan(sec, pos + 5 + Len12(sec, pos + 3), sectionLength) == Ok(es[1..]);
    assert es == [es[0]] + es[1..];
  }

  /**
   * Where the loop values of `es` lie at `pos`, the first entry reads back
   * there, lies inside the section, and the rest of the values follow it.
   */
  lemma PmtScanLoopHead(sec: seq<byte>, v: seq<int>, pos: nat, sectionLength: int, es: seq<PmtEntry>)
    requires es != [] && forall k | 0 <= k < |es| :: WellFormedPmtEntry(es[k])
    requires Encodes(sec, v) && pos + |PmtLoopVals(es)| <= |v|
    requires v[pos .. pos + |PmtLoopVals(es)|] == PmtLoopVals(es)
    requires sectionLength == pos + |PmtLoopVals(es)| + 1
    ensures PmtEntryAt(sec, pos) == es[0]
    ensures forall k | 0 <= k < |es[1..]| :: WellFormedPmtEntry(es[1..][k])
    ensures pos <= sectionLength - 2 && pos + 5 <= |sec| && (es[0].esInfoLength != 0 ==> pos + 6 <= |sec|)
    ensures var next := pos + 5 + es[0].esInfoLength;
      && next + |PmtLoopVals(es[1..])| <= |v|
      && v[next .. next + |PmtLoopVals(es[1..])|] == PmtLoopVals(es[1..])
      && sectionLength == next + |PmtLoopVals(es[1..])| + 1
  {
    PmtLoopSplit(v, pos, es);
    PmtEntryRoundTrip(sec, v, pos, es[0]);
  }

  /** Scanning the loop values of `es`, followed by the CRC, yields `es` again. */
  lemma {:induction false} PmtScanLoop(sec: seq<byte>, v: seq<int>, pos: nat, sectionLength: int, es: seq<PmtEntry>)
    requires forall k | 0 <= k < |es| :: WellFormedPmtEntry(es[k])
    requires Encodes(sec, v) && pos + |PmtLoopVals(es)| <= |v|
    requires v[pos .. pos + |PmtLoopVals(es)|] == PmtLoopVals(es)
    requires sectionLength == pos + |PmtLoopVals(es)| + 1
    ensures PmtScan(sec, pos, sectionLength) == Ok(es)
    decreases |es|
  {
    if es != [] {
      PmtScanLoopHead(sec, v, pos, sectionLength, es);
      PmtScanLoop(sec, v, pos + 5 + es[0].esInfoLength, sectionLength, es[1..]);
      PmtScanStep(sec, pos, sectionLength, es);
    }
  }

  /** The decoder starts the loop right after the program descriptors. */
  lemma DecodePmtScans(sec: seq<byte>, pil: nat, es: seq<PmtEntry>)
    requires |sec| >= 12 && ProgramInfoLength(sec) == pil
    requires PmtScan(sec, 12 + pil, SectionLength(sec)) == Ok(es)
    ensures DecodePmt(sec) == Ok(es)
  {
  }

  /** The first values of `a + b + c` are those of `a`. */
  lemma HeadOf<T>(a: seq<T>, b: seq<T>, c: seq<T>, i: nat)
    requires i < |a|
    ensures (a + b + c)[i] == a[i]
  {
  }

  /** Where the values carry the PMT header fields, the decoder reads them back. */
  lemma PmtHeaderReads(sec: seq<byte>, v: seq<int>, sectionLength: int, pcrPid: int, pil: int)
    requires Encodes(sec, v) && |v| >= 12
    requires v[1] % 0x10 * 0x100 + v[2] == sectionLength
    requires v[8] % 0x20 * 0x100 + v[9] == pcrPid
    requires v[10] % 0x10 * 0x100 + v[11] == pil
    ensures SectionLength(sec) == sectionLength
    ensures PcrPid(sec) == pcrPid && ProgramInfoLength(sec) == pil
  {
    ReadSectionLength(sec, v);
    ReadFields(sec, v, 8);
    ReadFields(sec, v, 10);
  }

  /** The first twelve values of a PMT section carry its length, PCR PID and program_info_length. */
  lemma PmtHeadFields(program: int, sectionLength: int, pcrPid: int, pil: int)
    requires 0 <= program < 0x10000 && 0 <= sectionLength < 0x1000
    requires 0 <= pcrPid < 0x2000 && 0 <= pil < 0x1000
    ensures var head := SectionHeaderVals(0x02, sectionLength, program) + PidVals(pcrPid) + LenVals(pil);
      && |head| == 12
      && head[1] % 0x10 * 0x100 + head[2] == sectionLength
      && head[8] % 0x20 * 0x100 + head[9] == pcrPid
      && head[10] % 0x10 * 0x100 + head[11] == pil
  {
    var hdr := SectionHeaderVals(0x02, sectionLength, program);
    var pcr := PidVals(pcrPid);
    var len := LenVals(pil);
    var head := hdr + pcr + len;
    assert head[1] == hdr[1] && head[2] == hdr[2];
    assert head[8] == pcr[0] && head[9] == pcr[1] && head[10] == len[0] && head[11] == len[1];
  }

  /** The header fields of a built PMT section. */
  lemma PmtBuiltHeader(program: int, pcrPid: int, pil: nat, es: seq<PmtEntry>)
    requires 0 <= program < 0x10000 && 0 <= pcrPid < 0x2000
    requires forall k | 0 <= k < |es| :: WellFormedPmtEntry(es[k])
    requires 13 + pil + |PmtLoopVals(es)| < 0x1000
    ensures SectionLength(BuildPmt(program, pcrPid, pil, es)) == 13 + pil + |PmtLoopVals(es)|
    ensures PcrPid(BuildPmt(program, pcrPid, pil, es)) == pcrPid
    ensures ProgramInfoLength(BuildPmt(program, pcrPid, pil, es)) == pil
  {
    var sl := 13 + pil + |PmtLoopVals(es)|;
    var head := SectionHeaderVals(0x02, sl, program) + PidVals(pcrPid) + LenVals(pil);
    var v := PmtSectionVals(program, pcrPid, pil, es);
    PmtHeadFields(program, sl, pcrPid, pil);
    forall i | 0 <= i < 12
      ensures v[i] == head[i]
    {
      HeadOf(head + Descriptors(pil), PmtLoopVals(es), CRC_PLACEHOLDER, i);
    }
    PmtHeaderReads(BuildPmt(program, pcrPid, pil, es), v, sl, pcrPid, pil);
  }

  /**
   * The decoder skips the program descriptors and reads back exactly the
   * streams the builder wrote, and the PCR PID.
   */
  lemma PmtRoundTrip(program: int, pcrPid: int, pil: nat, es: seq<PmtEntry>)
    requires 0 <= program < 0x10000 && 0 <= pcrPid < 0x2000
    requires forall k | 0 <= k < |es| :: WellFormedPmtEntry(es[k])
    requires 13 + pil + |PmtLoopVals(es)| < 0x1000
    ensures DecodePmt(BuildPmt(program, pcrPid, pil, es)) == Ok(es)
    ensures PcrPid(BuildPmt(program, pcrPid, pil, es)) == pcrPid
    ensures ProgramInfoLength(BuildPmt(program, pcrPid, pil, es)) == pil
  {
    var hdr := SectionHeaderVals(0x02, 13 + pil + |PmtLoopVals(es)|, program);
    var loop := PmtLoopVals(es);
    PmtBuiltHeader(program, pcrPid, pil, es);
    var front := hdr + PidVals(pcrPid) + LenVals(pil) + Descriptors(pil);
    SliceOfMiddle(front, loop, CRC_PLACEHOLDER, 12 + pil, 12 + pil + |loop|);
    var sec := BuildPmt(program, pcrPid, pil, es);
    PmtScanLoop(sec, PmtSectionVals(program, pcrPid, pil, es), 12 + pil, 13 + pil + |loop|, es);
    DecodePmtScans(sec, pil, es);
  }
}

=== FILE: util.dfy ===
/**
 * Shared vocabulary of the demultiplexer model: bytes, optional values,
 * results, the faults that replace the C code's unchecked
 * memory accesses, and the fixed-width integer conversions of its C types.
 */
module Util {

  /** One octet of the transport stream. */
  type byte = bv8

  datatype Option<T> = None | Some(value: T)

  /**
   * Conditions under which the C code reads or writes outside an array.
   * The model stops and reports one of these instead.
   */
  datatype Fault =
    | SectionOverrun    // a PAT or PMT field lies past the end of the packet
    | PayloadOverrun    // the adaptation field or the PES header reaches past the end of the packet
    | PmtTableOverflow  // the PMT lists more than MAX_NUM_ES elementary streams
    | EsTableOverflow   // a new PID arrives while all MAX_NUM_ES ES records are in use
    | BufferOverflow    // the ES bytes would not fit in the record's ES_MAX_SIZE buffer
    | NullRecord        // a write through the ES record pointer while it is still NULL

  datatype Result<T> = Ok(value: T) | Err(fault: Fault)

  const TWO_31: int := 0x8000_0000
  const TWO_32: int := 0x1_0000_0000
  const TWO_64: int := 0x1_0000_0000_0000_0000

  /** The value a `uint32_t` holds after an assignment of `x`. */
  function U32(x: int): (r: int)
    ensures 0 <= r < TWO_32
    ensures 0 <= x < TWO_32 ==> r == x
  {
    x % TWO_32
  }

  /** The value a 32-bit `int` holds after an assignment of `x` (two's complement wrap). */
  function I32(x: int): (r: int)
    ensures -TWO_31 <= r < TWO_31
    ensures -TWO_31 <= x < TWO_31 ==> r == x
  {
    (x + TWO_31) % TWO_32 - TWO_31
  }

  /** The value a `size_t` (64-bit unsigned) holds after an assignment of `x`. */
  function SizeT(x: int): (r: int)
    ensures 0 <= r < TWO_64
    ensures 0 <= x < TWO_64 ==> r == x
  {
    x % TWO_64
  }

  /** Wrapping to 32 bits twice is wrapping once, for unsigned and signed alike. */
  lemma WrapTwice(a: int, b: int)
    ensures U32(U32(a) + b) == U32(a + b)
    ensures I32(I32(a) + b) == I32(a + b)
  {
    var q := a / TWO_32;
    assert U32(a) == a - q * TWO_32;
    assert (U32(a) + b) % TWO_32 == (a + b - q * TWO_32) % TWO_32 == (a + b) % TWO_32;
    var p := (a + TWO_31) / TWO_32;
    assert I32(a) == a - p * TWO_32;
    assert (I32(a) + b + TWO_31) % TWO_32 == (a + b + TWO_31 - p * TWO_32) % TWO_32 == (a + b + TWO_31) % TWO_32;
  }

  function Min(a: int, b: int): int { if a <= b then a else b }

  /** The byte whose unsigned value is `x`, counted up from zero. */
  function ByteOf(x: int): (r: byte)
    requires 0 <= x < 256
    ensures r as int == x
    decreases x
  {
    if x == 0 then 0 else ByteOf(x - 1) + 1
  }

  /** `b` holds the byte values `xs`. */
  predicate Encodes(b: seq<byte>, xs: seq<int>)
  {
    |b| == |xs| && forall i | 0 <= i < |xs| :: b[i] as int == xs[i]
  }

  /** Every element is the value of a byte. */
  predicate IsByteValues(xs: seq<int>)
  {
    forall i | 0 <= i < |xs| :: 0 <= xs[i] < 256
  }

  /** The bytes whose values are `xs`, in order. */
  function Bytes(xs: seq<int>): (b: seq<byte>)
    requires IsByteValues(xs)
    ensures |b| == |xs|
    ensures forall i | 0 <= i < |xs| :: b[i] as int == xs[i]
  {
    if xs == [] then [] else [ByteOf(xs[0])] + Bytes(xs[1..])
  }

  /** Masks and shifts of a byte, read as integer arithmetic on its value. */
  lemma ByteMasks(b: byte)
    ensures (b & 0x1F) as int == b as int % 0x20
    ensures (b & 0x0F) as int == b as int % 0x10
  {
  }
}
